=== FILE: README.md ===
# Secure Chat client: session model

A Dafny model of the browser client of a room-based chat. A user picks a display
name and a room code on the entry screen (`Home.jsx`), is sent to the room's chat
route, and the chat page (`ChatRoom.jsx`) talks to the server over a socket. The
page keeps the message log, the presence list and the set of people typing. It
sends the typed messages, announces typing with a debounce timer, and shows the
connection state. Two small helpers are modelled too: the bubble style and label
of a message (`Message.jsx`) and the choice of server address (`getServerUrl.js`).

The model is functional:

- `ChatSession.Session` is one immutable record holding everything the chat page keeps:
  - the log, the users and the typing set;
  - the draft;
  - the flags `isConnected`, `isLoading`, `isTyping` and `timerPending`;
  - the error and status lines;
  - the stored identity and the current page.
- `ChatSession.Step(session, event)` handles one event, and `ChatSession.Run` folds a sequence of them. The events are:
  - socket events from the server;
  - user intents: edit, key press, submit, leave, manual reconnect;
  - the typing timer firing;
  - the connection object becoming available;
  - the page unmounting.
- Every protocol event the client emits (`joinRoom`, `sendMessage`, `typingStart`, `typingStop`) is appended to `outbox`. Commands to the connection itself (reopen, close) go to `link`.
- The typing set is a duplicate-free sequence kept in insertion order, like a JavaScript `Set` (`TypingSet`).
- The string primitives the code uses are modelled exactly in `Text`:
  - `trim` uses the full ECMAScript whitespace and line-terminator set;
  - `substring(0, n)`;
  - the decimal rendering of counts.
- Strings are `seq<char>`.

The properties proved, besides each handler's contract:

- After any event sequence, the typing set holds exactly the names whose last signal was a start. No name is ever listed twice.
- From mount onward, the outbox never holds two `typingStart`s without a `typingStop` between them.
- Between history loads the log only grows, in arrival order.
- Every connect or reconnect signal emits exactly one `joinRoom`.
- A send is never dispatched while disconnected or for a whitespace-only draft. Its payload is the trimmed draft cut to 1000 characters.
- Presence and history updates are idempotent.
- The message area shows placeholders, the empty state or the bubbles in log order.
- The join form enforces its blank and length rules in that order, with 20 characters accepted.

A few behaviours of the code are easy to misread, and the model keeps them as written:

- A send emits `typingStop` every time, even when no typing start is outstanding (`ChatRoom.jsx:166`).
- A disconnect forced by the server only sets the "refresh the page" error (`ChatRoom.jsx:88-90`). Connection state, the reconnect buttons and the socket are handled exactly as for any other drop.
- `connect` clears the loading flag itself (`ChatRoom.jsx:76`), before any history arrives.
- The room code from the route (`ChatRoom.jsx:8`) is sent in `joinRoom` unchanged (`ChatRoom.jsx:80`), with no case normalisation.
- Leaving closes the connection (`ChatRoom.jsx:193`) and emits no protocol event of its own.

The entry form's alert says names must be "less than 20 characters". The length test behind that alert accepts exactly 20, as do the inputs' `maxLength`; the model follows the test (`JoinForm.ExactlyTwentyAccepted`).

## Model

| member | source | states |
|---|---|---|
| Text.Trim | src/pages/Home.jsx:14 | `trim` returns a piece of the input with no whitespace at either end; it is empty exactly when the input is all whitespace |
| Text.TrimStart | src/pages/ChatRoom.jsx:160 | leading whitespace removal returns the longest suffix not starting with whitespace, everything cut being whitespace |
| Text.TrimEnd | src/pages/ChatRoom.jsx:160 | trailing whitespace removal returns the longest prefix not ending with whitespace, everything cut being whitespace |
| Text.TrimIsInfix | src/pages/ChatRoom.jsx:162 | the trimmed text is the slice of the input between a whitespace-only head and a whitespace-only tail |
| Text.TrimIdempotent | src/pages/Home.jsx:27 | trimming an already trimmed string changes nothing |
| Text.Prefix | src/pages/ChatRoom.jsx:162 | `substring(0, n)` is a prefix of length min(n, length) |
| Text.PrefixOfShort | src/pages/Home.jsx:27-28 | cutting a string to a length it already respects returns it unchanged |
| Text.NatToString | src/pages/ChatRoom.jsx:211-212 | a count renders as canonical decimal digits: non-empty, all digits, no leading zero, one digit exactly below ten |
| Text.ParseNatToString | src/pages/ChatRoom.jsx:208 | reading the rendered digits back gives the number |
| Text.NatToStringInjective | src/pages/ChatRoom.jsx:212 | different counts render differently |
| ServerUrl.GetServerUrl | src/utils/getServerUrl.js:1-12 | an override is returned unchanged; otherwise a loopback host gives `http://localhost:5000` and any other host gives protocol, `//`, the host and `:5000`, so every location-based address ends in `:5000` |
| ServerUrl.OverrideIgnoresLocation | src/utils/getServerUrl.js:2-5 | a non-empty, non-"auto" setting wins whatever the page location |
| ServerUrl.AutoAndEmptyFallThrough | src/utils/getServerUrl.js:3 | "auto" and "" behave exactly like an unset setting |
| ServerUrl.LoopbackIgnoresProtocol | src/utils/getServerUrl.js:8-10 | on localhost or 127.0.0.1 the page protocol plays no part |
| ServerUrl.LocationUrlDeterminesHost | src/utils/getServerUrl.js:11 | distinct non-loopback hosts give distinct addresses (the host can be read back) |
| MessageView.ClassOf | src/components/Message.jsx:10-13 | style is "system" exactly for type "system", "self" exactly for a non-system message by the current user, "other" otherwise |
| MessageView.DisplayName | src/components/Message.jsx:15-18 | label is "System" for system notices, "You" for one's own messages, the author's name otherwise |
| MessageView.SystemIgnoresAuthor | src/components/Message.jsx:11-16 | a system notice is styled and labelled the same whoever is named as author |
| MessageView.ClassAndLabelAgree | src/components/Message.jsx:10-18 | "self" always goes with "You", "system" with "System", "other" with the author; the class name is one of the three |
| MessageView.OwnershipIsPerViewer | src/components/Message.jsx:12-17 | the same message is "self" for its author and "other", labelled with the author, for anyone else |
| JoinForm.HandleJoin | src/pages/Home.jsx:11-38 | rejected with the blank alert if a trimmed field is empty, else with the length alert if a raw field exceeds 20; otherwise the trimmed name (1..20 chars) is stored and the target is `/chat/` plus the encoded trimmed room code, storage or encoding failures giving the join-failed alert |
| JoinForm.ExactlyTwentyAccepted | src/pages/Home.jsx:19-22 | the length limit is inclusive: 20 characters pass |
| JoinForm.BlankReportedBeforeLength | src/pages/Home.jsx:14-22 | when one field is blank and one field is too long, in either order or in the same field, the blank alert is the one shown |
| JoinForm.SanitisingCutIsNoOp | src/pages/Home.jsx:19-28 | after acceptance the 20-character cut changes neither field and the room code is 1..20 characters |
| JoinForm.JoinIgnoresSurroundingWhitespace | src/pages/Home.jsx:27-31 | the stored name and route carry no surrounding whitespace |
| TypingSet.Add | src/pages/ChatRoom.jsx:132-134 | adding a name keeps the old order, adds it at the end only if absent, and keeps the set duplicate-free |
| TypingSet.Remove | src/pages/ChatRoom.jsx:136-142 | removing a name keeps every other name, is a no-op when absent, and keeps the set duplicate-free |
| TypingSet.AddRemoveIdempotent | src/pages/ChatRoom.jsx:132-142 | adding twice is adding once; removing twice is removing once |
| TypingSet.RemoveCutsOneOut | src/pages/ChatRoom.jsx:136-142 | on a duplicate-free set, removal cuts out exactly that one entry, the rest staying in order |
| ChatSession.Mount | src/pages/ChatRoom.jsx:36-48 | no stored name (or an empty one) redirects home; otherwise a fresh, loading, disconnected session starts on the chat page against the chosen server, with the name stored, an empty draft and error line, and empty log, users, typing set, outbox and link |
| ChatSession.OnConnect | src/pages/ChatRoom.jsx:71-82 | connect sets connected, clears the error and loading, and emits exactly one `joinRoom(username, roomCode)` |
| ChatSession.OnDisconnect | src/pages/ChatRoom.jsx:84-91 | disconnect clears connected and sets the refresh error only for "io server disconnect", otherwise keeping the error |
| ChatSession.OnConnectError | src/pages/ChatRoom.jsx:93-98 | a connect error clears connected and loading and shows the retry error |
| ChatSession.ReconnectingTextReadsBack | src/pages/ChatRoom.jsx:100-103 | the retry progress text carries the attempt number, which reads back |
| ChatSession.OnReconnect | src/pages/ChatRoom.jsx:105-110 | reconnect sets connected, clears the error and emits `joinRoom` again, leaving loading as it was |
| ChatSession.OnLoadMessages | src/pages/ChatRoom.jsx:118-121 | history replaces the whole log (absent means empty) and ends loading |
| ChatSession.AppendMessage | src/pages/ChatRoom.jsx:123-127 | a message or notice goes at the end and every earlier entry stays |
| ChatSession.OnRoomUsers | src/pages/ChatRoom.jsx:129 | presence replaces the users wholesale (absent means empty) |
| ChatSession.ReceiveLink | src/pages/ChatRoom.jsx:71-114 | the six connection-layer handlers: connect and reconnect join once and mark the session connected with the error cleared; disconnect and connect_error mark it disconnected; only connect and connect_error end loading; each handler's error line; the log, presence list, typing set, socket, link, draft and debounce flags are left alone |
| ChatSession.ReceiveContent | src/pages/ChatRoom.jsx:117-140 | the six content handlers change nothing but the log, the presence list, the typing set and (for a history load) the loading flag, each as its handler says |
| ChatSession.Receive | src/pages/ChatRoom.jsx:71-142 | only connect and reconnect emit (one join each), and both mark the session connected with the error cleared; disconnect and connect_error mark it disconnected, connect_error with its retry error; connect, connect_error and a history load end loading; retry attempts and retry failure set their error lines; presence replaces the user list; and every field a handler does not set is unchanged: only the four connection signals move the connection flag, only the six connection-layer events touch the error line, only presence touches the user list, only typing signals touch the typing set, only history and messages touch the log, and no server event touches the socket, link, debounce flags or draft |
| ChatSession.Payload | src/pages/ChatRoom.jsx:162 | the payload is a prefix of the trimmed draft of length exactly min(1000, trimmed length), so the whole trimmed draft when it fits, and non-empty for a non-blank draft |
| ChatSession.CanSend | src/pages/ChatRoom.jsx:160 | a send goes ahead exactly when the trimmed draft is non-empty, a connection object exists and it is connected, and then the payload is non-empty and at most 1000 characters |
| ChatSession.ReconnectingText | src/pages/ChatRoom.jsx:100-103 | the retry notice is "Reconnecting... (Attempt ", the attempt number in decimal, then "/10)", and nothing else |
| ChatSession.HandleSend | src/pages/ChatRoom.jsx:158-169 | a blank draft, no connection object or no connection changes nothing; otherwise the payload then `typingStop` are emitted, the draft is cleared and typing and its timer are off |
| ChatSession.HandleTyping | src/pages/ChatRoom.jsx:171-183 | without a live connection nothing changes; otherwise `typingStart` is emitted only if not already typing and the timer is (re)armed |
| ChatSession.OnTypingTimer | src/pages/ChatRoom.jsx:179-182 | a pending timer firing emits `typingStop` and clears typing; with no timer nothing happens |
| ChatSession.HandleLeave | src/pages/ChatRoom.jsx:192-196 | leaving closes the connection if any, forgets the stored name and goes to the entry screen, emitting no protocol event |
| ChatSession.Step | src/pages/ChatRoom.jsx:71-200 | every event keeps the outbox append-only and the identity and room fixed; the connection flag, user list, typing set and log change only as `Receive` says on server events; user actions leave loading and the error line alone, only the socket hand-over sets `hasSocket`, and only edits, key presses and submits touch the draft; the typing timer, when armed, stops typing and emits a stop; a leave, manual reconnect or unmount records a close, reopen or close command when a connection object exists |
| ChatSession.StepKeepsIdentityUnlessLeave | src/pages/ChatRoom.jsx:192-196 | leaving forgets the stored name and returns to the entry screen, and no other event touches either |
| ChatSession.Run | src/pages/ChatRoom.jsx:71-200 | over any event sequence the outbox only grows, the identity and room stay fixed, and without a leave the stored name and page are kept |
| ChatView.TypingText | src/pages/ChatRoom.jsx:203-209 | the line is empty exactly when nobody types and starts with the earliest typist; one typist gives the name and " is typing..." only; two or more put " and " right after the first name; two give both names and " are typing..." only; three or more end " others are typing..." after the other-typist count |
| ChatView.TwoTypistsBothNamed | src/pages/ChatRoom.jsx:207 | with two typists the second name follows " and " |
| ChatView.ManyTypistsCountReadsBack | src/pages/ChatRoom.jsx:208 | with three or more the number shown reads back as the count minus one |
| ChatView.UserCountText | src/pages/ChatRoom.jsx:211-212 | the count line starts with the count and a space and is "1 user online" exactly for one user; any other count is followed by " users online" and nothing else |
| ChatView.UserCountReadsBack | src/pages/ChatRoom.jsx:211-212 | the leading digits of the count line read back as the number of users |
| ChatView.RenderMessage | src/pages/ChatRoom.jsx:289-290 | a bubble carries the message's id, content, style and label for the current user |
| ChatView.RenderAll | src/pages/ChatRoom.jsx:289-291 | one bubble per message, bubble i rendering message i |
| ChatView.MessageList | src/pages/ChatRoom.jsx:280-292 | five placeholders exactly while loading, the empty state exactly when loaded with an empty log, otherwise the bubbles in log order |
| ChatView.ArrivalAddsBubbleAtEnd | src/pages/ChatRoom.jsx:289-291 | a new message adds one bubble at the bottom and leaves the earlier bubbles unchanged (never re-sorted) |
| ChatView.TypingIndicatorShown | src/pages/ChatRoom.jsx:297 | the typing indicator is shown exactly when the typing set is non-empty; the client does not filter its own name out of that set |
| ChatView.SendButtonEnabled | src/pages/ChatRoom.jsx:329 | the send button is enabled exactly when the trimmed draft is non-empty, the page is connected and not loading, and a click on it then sends whenever a connection object exists |
| ChatView.ReconnectOffered | src/pages/ChatRoom.jsx:233-237 | the status-bar reconnect button appears exactly when not connected (the one beside the error line, at lines 267-274, under the same condition once an error shows), and while it is shown the send button is disabled and no send can happen |
| SessionProperties.ConnectedFollowsLastSignal | src/pages/ChatRoom.jsx:71-109 | after any events, the connection flag is the one set by the last connect, reconnect, disconnect or connect_error (or, with none, the flag from before) |
| SessionProperties.UsersFollowLastPresence | src/pages/ChatRoom.jsx:128 | after any events, the user list is the last presence list received (absent meaning nobody), or the list from before if none came |
| SessionProperties.TypingSetFollowsLastSignal | src/pages/ChatRoom.jsx:132-142 | after any events, a name is typing exactly when its last signal was a start (or, with none, when it was typing before) |
| SessionProperties.TypingSetFromEmpty | src/pages/ChatRoom.jsx:132-142 | from an empty set, the set is exactly the names whose last signal was a start |
| SessionProperties.TypingSetStaysDuplicateFree | src/pages/ChatRoom.jsx:132-142 | no event sequence lists a name twice |
| SessionProperties.TypingExample | src/pages/ChatRoom.jsx:132-142 | start A, start B, stop A leaves exactly [B] |
| SessionProperties.StepKeepsDebounce | src/pages/ChatRoom.jsx:158-183 | every event keeps typing and timer together, starts alternating with stops, and no start open while not typing |
| SessionProperties.RunKeepsDebounce | src/pages/ChatRoom.jsx:158-183 | the debounce invariant survives any event sequence |
| SessionProperties.NeverTwoTypingStarts | src/pages/ChatRoom.jsx:171-183 | from mount on, the outbox never has two `typingStart` without a `typingStop` between them |
| SessionProperties.DisconnectedKeystrokeIsSilent | src/pages/ChatRoom.jsx:171-172 | a keystroke while disconnected emits nothing and arms no timer |
| SessionProperties.KeystrokesThenTimer | src/pages/ChatRoom.jsx:171-183 | two keystrokes then the timer emit exactly one start and one stop |
| SessionProperties.StepLogsArrival | src/pages/ChatRoom.jsx:123-127 | any event other than a history load leaves the log as it was, plus the one message it delivers if it is a chat or system message |
| SessionProperties.LogIsAppendOnly | src/pages/ChatRoom.jsx:123-127 | with no history load, the log is the old log followed by the arrivals in order |
| SessionProperties.LogAfterHistory | src/pages/ChatRoom.jsx:118-127 | after the last history load the log is that history followed by the later arrivals, and loading is over |
| SessionProperties.EmptyHistoryIsLoadedNotLoading | src/pages/ChatRoom.jsx:280-287 | an empty or absent history shows the empty state, not placeholders |
| SessionProperties.RoomUsersIdempotent | src/pages/ChatRoom.jsx:129 | the same presence update twice leaves the session as once |
| SessionProperties.LoadMessagesIdempotent | src/pages/ChatRoom.jsx:118-121 | the same history twice leaves the session as once |
| SessionProperties.StepJoins | src/pages/ChatRoom.jsx:71-110 | one event adds a join exactly when it is connect or reconnect |
| SessionProperties.OneJoinPerConnection | src/pages/ChatRoom.jsx:71-110 | over any events, joins emitted equal the number of connect and reconnect signals |
| SessionProperties.ReconnectRejoins | src/pages/ChatRoom.jsx:71-110 | connect, drop, reconnect emits one join at each connection and none at the drop, ending connected with no error |
| SessionProperties.LeaveIsFinal | src/pages/ChatRoom.jsx:192-196 | after leaving, no later event brings the stored name or the chat page back |
| SessionProperties.ConnectErrorOffersRetry | src/pages/ChatRoom.jsx:93-98 | after a failed connection attempt the retry error shows, loading is over, reconnect is offered and sending is off; a later connect clears the error |
| SessionProperties.ForcedDisconnectSetsRefreshError | src/pages/ChatRoom.jsx:84-91 | after a drop the refresh error shows exactly when the server forced it, and reconnect is offered |
| SessionProperties.RetryEventsOnlyChangeError | src/pages/ChatRoom.jsx:100-115 | retry progress and exhaustion change only the error line |
| SessionProperties.DisconnectedSendsOnlyStops | src/pages/ChatRoom.jsx:158-183 | while disconnected, no event other than connect or reconnect emits anything but `typingStop` |
| SessionProperties.NoSendWhileDisconnected | src/pages/ChatRoom.jsx:160 | submit or Enter while disconnected leaves the session unchanged whatever the draft |
| SessionProperties.BlankDraftNotSent | src/pages/ChatRoom.jsx:160 | a whitespace-only draft is never sent |
| SessionProperties.EnabledButtonSends | src/pages/ChatRoom.jsx:326-329 | when the send button is live and the connection object exists, submit emits the payload (1..1000 chars) and a stop and clears the draft |
| SessionProperties.OnlyPlainEnterSends | src/pages/ChatRoom.jsx:185-190 | Enter without Shift is a submit; any other key press changes nothing |
| SessionProperties.ConnectThenEmptyHistory | src/pages/ChatRoom.jsx:71-121 | connecting then loading an empty history joins once and shows the empty state |
| SessionProperties.TypeAndSendHi | src/pages/ChatRoom.jsx:158-183 | typing "hi" and submitting emits start, `sendMessage("hi")`, stop, leaving the log alone |
| SessionProperties.AliceSaysHi | src/pages/ChatRoom.jsx:71-169 | join as alice, empty history, send "hi", receive it: the outbox is join, start, "hi", stop and the one bubble is styled "self", labelled "You" |
| SessionProperties.MountAlice | src/pages/ChatRoom.jsx:36-40 | a stored name "alice" starts a session with an empty outbox, not typing |
| SessionProperties.OwnMessageShowsAsSelf | src/pages/ChatRoom.jsx:289-290 | a loaded one-message log by the current user renders one "self" bubble labelled "You" |

## Left out

- The socket transport, its reconnection settings (src/pages/ChatRoom.jsx:59-66) and the `/health` wake-up fetch (50-56) are library code and network I/O. Connection changes are abstract inbound events; `ManualReconnect` and `Unmount` only record a reopen or close command in `link`.
- The server URL's inputs are parameters: the build-time setting, hostname and protocol.
- The chat page's console logging (for example src/pages/ChatRoom.jsx:47, 53, 72) is omitted. The `serverInfo` diagnostics line is carried in the session, but no contract states its text.
- Timers are a `timerPending` flag plus an explicit `TypingTimerFired` event. The 1000 ms delay is not modelled.
- React state, rendering, scrolling and the stale-closure effects of hooks are left out. Events are handled strictly one at a time.
- The connection-status banner markup, the users sidebar (avatar initial, "You" badge) and the skeleton styling are pure presentation and are left out.
- The textarea's `maxLength` and `disabled` attributes (src/pages/ChatRoom.jsx:320-321) restrict what a user can type in the browser. The model lets edits and submits arrive in any state and relies on the handlers' own guards, which are modelled.
- Storage is modelled as fields:
  - `storedUsername` in the session;
  - `storageWorks` and the stored name in the join outcome.
- `encodeURIComponent` is an opaque parameter, with `None` standing for the case where it throws.
- The entry form's `isLoading` flag (src/pages/Home.jsx:24, 36) is set and reset within one handler and is left out.
- `formatTime` depends on `Date` and the locale and is left out. Timestamps are carried as plain integers.
- String lengths count Unicode scalar values, while JavaScript `.length` and `substring` count UTF-16 code units. A name with characters outside the Basic Multilingual Plane can pass the model's 20-character check yet fail the browser's. Likewise the 1000-character cut of a message can split a surrogate pair in the browser, which the model cannot express.
- `msgs || []` and `list || []` are modelled for absent (null/undefined) payloads only. Other falsy payloads are not.
- Leaving (`ChatRoom.jsx:193`) closes the socket when one exists. Unmounting (`ChatRoom.jsx:149-154`) closes only `socketRef.current`, which is assigned at line 68, after the `/health` fetch at line 52 has been awaited. An unmount during that fetch therefore closes nothing, and the socket created afterwards stays open with its listeners. The model records a close in `link` only when a socket exists (an `Unmount` before `SocketCreated` leaves `link` unchanged), and it does not forbid later events: `Step` still handles them. Unregistering listeners is not modelled.
- The file transfer, roles, kicking, transcript export, dedup of messages by id and a time-to-live on typing entries do not appear in this code and are not modelled.
- `src/components/NetworkInfo.jsx` (a fetch of `/info` and instructions) and `src/App.jsx` (the route table) are not part of this model.

=== FILE: chat_session.dfy ===
/**
 * The chat room's client-side session as a pure reducer: one immutable
 * `Session` value, folded over discrete events (inbound channel events,
 * user intents, the typing timer) one at a time. Every protocol event the
 * client emits is appended to `outbox`; commands to the connection itself
 * (reopen, close) go to `link`. Timers are a `timerPending` flag plus an
 * explicit `TypingTimerFired` event.
 */
module ChatSession {
  import opened Wrappers
  import opened Text
  import opened TypingSet
  import MessageView
  import ServerUrl

  type Message = MessageView.Message

  const MaxMessageLength: nat := 1000
  const MaxReconnectAttempts: nat := 10
  const ForcedDisconnectReason := "io server disconnect"
  const ForcedDisconnectError := "Server disconnected you. Please refresh the page."
  const ConnectFailedError := "Failed to connect to chat server. Please retry."
  const ReconnectFailedError := "Failed to reconnect. Please refresh."

  /** Protocol events sent to the server. */
  datatype Outbound =
    | JoinRoom(username: string, roomCode: string)
    | SendMessage(text: string)
    | TypingStart
    | TypingStop

  /** Commands to the connection object itself. */
  datatype LinkCommand = Reopen | Close

  datatype Page = ChatPage | HomePage

  datatype Session = Session(
    username: string,          // the stored identity, non-empty
    roomCode: string,          // the route parameter
    serverUrl: string,
    hasSocket: bool,           // the connection object has been handed to the handlers
    messages: seq<Message>,    // the conversation log, in arrival order
    users: seq<string>,        // presence list, as last sent by the server
    typingUsers: seq<string>,  // insertion-ordered set of names typing
    draft: string,             // the message being composed
    isConnected: bool,
    isLoading: bool,
    isTyping: bool,            // a typingStart has been sent and not yet stopped
    timerPending: bool,        // the typing-stop timer is armed
    error: string,
    serverInfo: string,
    outbox: seq<Outbound>,
    link: seq<LinkCommand>,
    storedUsername: Option<string>,
    page: Page)

  /** Events the server (or the connection layer) delivers. */
  datatype ServerEvent =
    | Connect
    | Disconnect(reason: string)
    | ConnectError
    | ReconnectAttempt(attempt: nat)
    | Reconnect
    | ReconnectFailed
    | LoadMessages(history: Option<seq<Message>>)
    | NewMessage(msg: Message)
    | SystemMessage(notice: Message)
    | RoomUsers(list: Option<seq<string>>)
    | UserTyping(typist: string)
    | UserStoppedTyping(idler: string)

  /** Everything the session reacts to. */
  datatype Event =
    | Server(ev: ServerEvent)
    | SocketCreated              // the connection object becomes available to the intents
    | Edit(text: string)         // the composer's text changes
    | KeyPress(key: string, shift: bool)
    | Submit                     // the send form is submitted
    | TypingTimerFired
    | LeaveRoom
    | ManualReconnect
    | Unmount                    // the chat page goes away

  datatype MountResult = RedirectHome | Started(session: Session)

  /**
   * Entering the chat page with identity `stored` (as read from storage) for
   * `roomCode`: no usable identity sends the user back to the entry screen;
   * otherwise a fresh session starts loading against the chosen server.
   */
  function Mount(stored: Option<string>, roomCode: string,
                 env: Option<string>, hostname: string, protocol: string): (r: MountResult)
    ensures r.RedirectHome? <==> stored.None? || stored.value == ""
    ensures r.Started? ==>
              && r.session.username == stored.value
              && r.session.roomCode == roomCode
              && r.session.serverUrl == ServerUrl.GetServerUrl(env, hostname, protocol)
              && r.session.isLoading && !r.session.isConnected && !r.session.hasSocket
              && !r.session.isTyping && !r.session.timerPending
              && r.session.messages == [] && r.session.users == [] && r.session.typingUsers == []
              && r.session.outbox == [] && r.session.link == []
              && r.session.draft == "" && r.session.error == ""
              && r.session.storedUsername == stored && r.session.page == ChatPage
  {
    match stored
    case None => RedirectHome
    case Some(name) =>
      if name == "" then RedirectHome
      else
        var url := ServerUrl.GetServerUrl(env, hostname, protocol);
        Started(Session(name, roomCode, url, false, [], [], [], "",
                        false, true, false, false, "", "Connecting to: " + url,
                        [], [], Some(name), ChatPage))
  }

  // ----- connection lifecycle -----

  /** Opened: connected, error cleared, loading over, and the room joined once. */
  function OnConnect(s: Session): (r: Session)
    ensures r.isConnected && r.error == "" && !r.isLoading
    ensures r.outbox == s.outbox + [JoinRoom(s.username, s.roomCode)]
    ensures r.messages == s.messages && r.typingUsers == s.typingUsers && r.users == s.users
  {
    s.(isConnected := true, error := "", serverInfo := "Connected to: " + s.serverUrl,
       isLoading := false, outbox := s.outbox + [JoinRoom(s.username, s.roomCode)])
  }

  /** Dropped: not connected; only a server-initiated drop sets the terminal error. */
  function OnDisconnect(s: Session, reason: string): (r: Session)
    ensures !r.isConnected && r.outbox == s.outbox && r.isLoading == s.isLoading
    ensures reason == ForcedDisconnectReason ==> r.error == ForcedDisconnectError
    ensures reason != ForcedDisconnectReason ==> r.error == s.error
  {
    s.(isConnected := false, serverInfo := "Disconnected: " + reason,
       error := if reason == ForcedDisconnectReason then ForcedDisconnectError else s.error)
  }

  /** A failed attempt: not connected, error shown, loading over. */
  function OnConnectError(s: Session): (r: Session)
    ensures !r.isConnected && !r.isLoading && r.error == ConnectFailedError
    ensures r.outbox == s.outbox
  {
    s.(error := ConnectFailedError, isConnected := false, isLoading := false)
  }

  const ReconnectingLead := "Reconnecting... (Attempt "
  const AttemptsSuffix := "/10)"

  /** The progress text of a retry, e.g. "Reconnecting... (Attempt 3/10)". */
  function ReconnectingText(attempt: nat): (r: string)
    ensures var n := NatToString(attempt);
            && |r| == |ReconnectingLead| + |n| + |AttemptsSuffix|
            && r[..|ReconnectingLead|] == ReconnectingLead
            && r[|ReconnectingLead|..|ReconnectingLead| + |n|] == n
            && EndsWith(r, AttemptsSuffix)
  {
    assert NatToString(MaxReconnectAttempts) == "10";
    ReconnectingLead + NatToString(attempt) + "/" + NatToString(MaxReconnectAttempts) + ")"
  }

  /** The attempt number can be read back from the progress text. */
  lemma ReconnectingTextReadsBack(attempt: nat)
    ensures var t := ReconnectingText(attempt);
            var k := |ReconnectingLead|;
            var d := NatToString(attempt);
            && k + |d| <= |t| && t[k..k + |d|] == d
            && ParseDecimal(t[k..k + |d|]) == attempt
  {
    ParseNatToString(attempt);
  }

  /** Back after a drop: connected, error cleared, and the room joined again. */
  function OnReconnect(s: Session): (r: Session)
    ensures r.isConnected && r.error == ""
    ensures r.outbox == s.outbox + [JoinRoom(s.username, s.roomCode)]
    ensures r.isLoading == s.isLoading
  {
    s.(error := "", isConnected := true, outbox := s.outbox + [JoinRoom(s.username, s.roomCode)])
  }

  // ----- conversation state -----

  /** The history replaces the whole log (absent history means none); loading is over. */
  function OnLoadMessages(s: Session, history: Option<seq<Message>>): (r: Session)
    ensures r.messages == history.GetOr([]) && !r.isLoading
    ensures r.outbox == s.outbox && r.isConnected == s.isConnected
  {
    s.(messages := history.GetOr([]), isLoading := false)
  }

  /** A new entry goes at the end; every earlier entry stays where it was. */
  function AppendMessage(s: Session, m: Message): (r: Session)
    ensures |r.messages| == |s.messages| + 1
    ensures r.messages[..|s.messages|] == s.messages && r.messages[|s.messages|] == m
    ensures r.outbox == s.outbox && r.isLoading == s.isLoading
  {
    s.(messages := s.messages + [m])
  }

  /** The presence list is replaced wholesale (absent list means nobody). */
  function OnRoomUsers(s: Session, list: Option<seq<string>>): (r: Session)
    ensures r.users == list.GetOr([])
    ensures r.messages == s.messages && r.outbox == s.outbox
  {
    s.(users := list.GetOr([]))
  }

  /** The connection-layer events: the only ones that touch the connection flag or the error line. */
  predicate IsLinkEvent(e: ServerEvent) {
    e.Connect? || e.Disconnect? || e.ConnectError? || e.ReconnectAttempt? || e.Reconnect? || e.ReconnectFailed?
  }

  /** A connection-layer event: the log, the presence list and the typing set are left alone. */
  function ReceiveLink(s: Session, e: ServerEvent): (r: Session)
    requires IsLinkEvent(e)
    ensures r.outbox == if e.Connect? || e.Reconnect? then s.outbox + [JoinRoom(s.username, s.roomCode)] else s.outbox
    ensures r.username == s.username && r.roomCode == s.roomCode
    ensures r.isTyping == s.isTyping && r.timerPending == s.timerPending && r.draft == s.draft
    ensures r.storedUsername == s.storedUsername && r.page == s.page
    ensures r.hasSocket == s.hasSocket && r.link == s.link
    ensures r.messages == s.messages && r.users == s.users && r.typingUsers == s.typingUsers
    ensures e.Connect? || e.Reconnect? ==> r.isConnected && r.error == ""
    ensures e.Disconnect? || e.ConnectError? ==> !r.isConnected
    ensures e.ReconnectAttempt? || e.ReconnectFailed? ==> r.isConnected == s.isConnected
    ensures e.Connect? || e.ConnectError? ==> !r.isLoading
    ensures !(e.Connect? || e.ConnectError?) ==> r.isLoading == s.isLoading
    ensures e.ConnectError? ==> r.error == ConnectFailedError
    ensures e.Disconnect? ==> r.error == if e.reason == ForcedDisconnectReason then ForcedDisconnectError else s.error
    ensures e.ReconnectAttempt? ==> r.error == ReconnectingText(e.attempt)
    ensures e.ReconnectFailed? ==> r.error == ReconnectFailedError
  {
    match e
    case Connect => OnConnect(s)
    case Disconnect(reason) => OnDisconnect(s, reason)
    case ConnectError => OnConnectError(s)
    case ReconnectAttempt(n) => s.(error := ReconnectingText(n))
    case Reconnect => OnReconnect(s)
    case ReconnectFailed => s.(error := ReconnectFailedError)
  }

  /** A content event: only the log, the presence list, the typing set and the loading flag change. */
  function ReceiveContent(s: Session, e: ServerEvent): (r: Session)
    requires !IsLinkEvent(e)
    ensures r == s.(messages := r.messages, users := r.users, typingUsers := r.typingUsers, isLoading := r.isLoading)
    ensures r.isLoading == if e.LoadMessages? then false else s.isLoading
    ensures r.users == if e.RoomUsers? then e.list.GetOr([]) else s.users
    ensures r.messages == if e.LoadMessages? then e.history.GetOr([])
                          else if e.NewMessage? then s.messages + [e.msg]
                          else if e.SystemMessage? then s.messages + [e.notice]
                          else s.messages
    ensures r.typingUsers == if e.UserTyping? then Add(s.typingUsers, e.typist)
                             else if e.UserStoppedTyping? then Remove(s.typingUsers, e.idler)
                             else s.typingUsers
  {
    match e
    case LoadMessages(history) => OnLoadMessages(s, history)
    case NewMessage(m) => AppendMessage(s, m)
    case SystemMessage(m) => AppendMessage(s, m)
    case RoomUsers(list) => OnRoomUsers(s, list)
    case UserTyping(name) => s.(typingUsers := Add(s.typingUsers, name))
    case UserStoppedTyping(name) => s.(typingUsers := Remove(s.typingUsers, name))
  }

  /** One inbound event: only the two (re)connection signals emit anything, namely the join. */
  function Receive(s: Session, e: ServerEvent): (r: Session)
    ensures r.outbox == if e.Connect? || e.Reconnect? then s.outbox + [JoinRoom(s.username, s.roomCode)] else s.outbox
    ensures r.username == s.username && r.roomCode == s.roomCode
    ensures r.isTyping == s.isTyping && r.timerPending == s.timerPending && r.draft == s.draft
    ensures r.storedUsername == s.storedUsername && r.page == s.page
    ensures e.Connect? || e.Reconnect? ==> r.isConnected && r.error == ""
    ensures e.Disconnect? || e.ConnectError? ==> !r.isConnected
    ensures e.Connect? || e.ConnectError? || e.LoadMessages? ==> !r.isLoading
    ensures e.Disconnect? || e.Reconnect? ==> r.isLoading == s.isLoading
    ensures e.ConnectError? ==> r.error == ConnectFailedError
    ensures e.Disconnect? ==> r.error == if e.reason == ForcedDisconnectReason then ForcedDisconnectError else s.error
    ensures e.ReconnectAttempt? ==> r.error == ReconnectingText(e.attempt)
    ensures e.ReconnectFailed? ==> r.error == ReconnectFailedError
    ensures e.RoomUsers? ==> r.users == e.list.GetOr([])
    ensures !e.RoomUsers? ==> r.users == s.users
    ensures !(e.Connect? || e.Reconnect? || e.Disconnect? || e.ConnectError?) ==> r.isConnected == s.isConnected
    ensures !(e.Connect? || e.ConnectError? || e.LoadMessages?) ==> r.isLoading == s.isLoading
    ensures !(e.Connect? || e.Reconnect? || e.Disconnect? || e.ConnectError? || e.ReconnectAttempt? || e.ReconnectFailed?) ==>
              r.error == s.error
    ensures r.hasSocket == s.hasSocket && r.link == s.link
    ensures r.messages == if e.LoadMessages? then e.history.GetOr([])
                          else if e.NewMessage? then s.messages + [e.msg]
                          else if e.SystemMessage? then s.messages + [e.notice]
                          else s.messages
    ensures r.typingUsers == if e.UserTyping? then Add(s.typingUsers, e.typist)
                             else if e.UserStoppedTyping? then Remove(s.typingUsers, e.idler)
                             else s.typingUsers
  {
    if IsLinkEvent(e) then ReceiveLink(s, e) else ReceiveContent(s, e)
  }

  // ----- local intents -----

  /** The send guard: something other than whitespace to send, and a live connection. */
  predicate CanSend(s: Session)
    ensures CanSend(s) <==> Trim(s.draft) != [] && s.hasSocket && s.isConnected
    ensures CanSend(s) ==> 0 < |Payload(s.draft)| <= MaxMessageLength
  {
    !IsBlank(s.draft) && s.hasSocket && s.isConnected
  }

  /** What is sent for a draft: trimmed, then cut to the length limit. */
  function Payload(draft: string): (t: string)
    ensures |t| <= |Trim(draft)| && t == Trim(draft)[..|t|]
    ensures |t| <= MaxMessageLength
    ensures |Trim(draft)| <= MaxMessageLength ==> t == Trim(draft)
    ensures |t| == if |Trim(draft)| <= MaxMessageLength then |Trim(draft)| else MaxMessageLength
    ensures !IsBlank(draft) ==> 0 < |t|
  {
    Prefix(Trim(draft), MaxMessageLength)
  }

  /**
   * Sending: when the guard fails nothing at all happens; otherwise the
   * payload goes out followed by a typing stop, the composer is cleared and
   * the typing timer is cancelled.
   */
  function HandleSend(s: Session): (r: Session)
    ensures |s.outbox| <= |r.outbox| && r.outbox[..|s.outbox|] == s.outbox
    ensures !CanSend(s) ==> r == s
    ensures CanSend(s) ==>
              && |r.outbox| == |s.outbox| + 2
              && r.outbox[|s.outbox|] == SendMessage(Payload(s.draft))
              && r.outbox[|s.outbox| + 1] == TypingStop
    ensures CanSend(s) ==> r.draft == "" && !r.isTyping && !r.timerPending
    ensures r.messages == s.messages && r.isConnected == s.isConnected
  {
    if !CanSend(s) then s
    else
      s.(outbox := s.outbox + [SendMessage(Payload(s.draft)), TypingStop],
         draft := "", isTyping := false, timerPending := false)
  }

  /**
   * A keystroke: nothing without a live connection; otherwise a typing start
   * is sent only if none is outstanding, and the stop timer is (re)armed.
   */
  function HandleTyping(s: Session): (r: Session)
    ensures !(s.hasSocket && s.isConnected) ==> r == s
    ensures s.hasSocket && s.isConnected ==> r.isTyping && r.timerPending
    ensures s.hasSocket && s.isConnected && !s.isTyping ==> r.outbox == s.outbox + [TypingStart]
    ensures s.isTyping ==> r.outbox == s.outbox
    ensures r.draft == s.draft && r.messages == s.messages
  {
    if !(s.hasSocket && s.isConnected) then s
    else if s.isTyping then s.(timerPending := true)
    else s.(isTyping := true, timerPending := true, outbox := s.outbox + [TypingStart])
  }

  /** The typing timer runs out: typing is over and the stop is sent, connected or not. */
  function OnTypingTimer(s: Session): (r: Session)
    ensures !s.timerPending ==> r == s
    ensures s.timerPending ==> !r.isTyping && !r.timerPending && r.outbox == s.outbox + [TypingStop]
  {
    if !s.timerPending then s
    else s.(isTyping := false, timerPending := false, outbox := s.outbox + [TypingStop])
  }

  /** Leaving: close the connection if there is one, forget the identity, go to the entry screen. */
  function HandleLeave(s: Session): (r: Session)
    ensures r.storedUsername == None && r.page == HomePage
    ensures r.link == if s.hasSocket then s.link + [Close] else s.link
    ensures r.outbox == s.outbox
  {
    s.(link := if s.hasSocket then s.link + [Close] else s.link,
       storedUsername := None, page := HomePage)
  }

  /** One event, handled. */
  function Step(s: Session, e: Event): (r: Session)
    ensures |s.outbox| <= |r.outbox| && r.outbox[..|s.outbox|] == s.outbox
    ensures r.username == s.username && r.roomCode == s.roomCode
    ensures r.typingUsers == if e.Server? then Receive(s, e.ev).typingUsers else s.typingUsers
    ensures r.messages == if e.Server? then Receive(s, e.ev).messages else s.messages
    ensures r.isConnected == if e.Server? then Receive(s, e.ev).isConnected else s.isConnected
    ensures r.users == if e.Server? then Receive(s, e.ev).users else s.users
    ensures !e.Server? ==> r.isLoading == s.isLoading && r.error == s.error
    ensures r.hasSocket == (s.hasSocket || e == SocketCreated)
    ensures !(e.Edit? || e == Submit || e.KeyPress?) ==> r.draft == s.draft
    ensures e == TypingTimerFired && s.timerPending ==>
              !r.isTyping && !r.timerPending && r.outbox == s.outbox + [TypingStop]
    ensures e == LeaveRoom ==> r.link == if s.hasSocket then s.link + [Close] else s.link
    ensures e == ManualReconnect ==> r.link == if s.hasSocket then s.link + [Reopen] else s.link
    ensures e == Unmount ==> r.link == if s.hasSocket then s.link + [Close] else s.link
  {
    match e
    case Server(ev) => Receive(s, ev)
    case SocketCreated => s.(hasSocket := true)
    case Edit(text) => HandleTyping(s.(draft := text))
    case KeyPress(key, shift) => if key == "Enter" && !shift then HandleSend(s) else s
    case Submit => HandleSend(s)
    case TypingTimerFired => OnTypingTimer(s)
    case LeaveRoom => HandleLeave(s)
    case ManualReconnect => if s.hasSocket then s.(link := s.link + [Reopen]) else s
    case Unmount => if s.hasSocket then s.(link := s.link + [Close]) else s
  }

  /** Only leaving forgets the stored name or changes page. */
  lemma StepKeepsIdentityUnlessLeave(s: Session, e: Event)
    ensures var r := Step(s, e);
            if e == LeaveRoom then r.storedUsername == None && r.page == HomePage
            else r.storedUsername == s.storedUsername && r.page == s.page
  {
  }

  /** A sequence of events, handled in order. */
  function Run(s: Session, events: seq<Event>): (r: Session)
    ensures |s.outbox| <= |r.outbox| && r.outbox[..|s.outbox|] == s.outbox
    ensures r.username == s.username && r.roomCode == s.roomCode
    ensures (forall i :: 0 <= i < |events| ==> events[i] != LeaveRoom) ==>
              r.storedUsername == s.storedUsername && r.page == s.page
    decreases |events|
  {
    if events == [] then s
    else
      var mid := Run(s, events[..|events| - 1]);
      assert forall i :: 0 <= i < |events| - 1 ==> events[..|events| - 1][i] == events[i];
      StepKeepsIdentityUnlessLeave(mid, events[|events| - 1]);
      Step(mid, events[|events| - 1])
  }
}

=== FILE: chat_view.dfy ===
/**
 * What the chat page derives from a session for display: the typing
 * indicator, the online-user count, the message list (loading placeholders,
 * empty state or one bubble per message) and which controls are live.
 */
module ChatView {
  import opened Text
  import MessageView
  import ChatSession

  const SkeletonCount: nat := 5
  const OneTypingSuffix := " is typing..."
  const ManyTypingSuffix := " are typing..."
  const OthersTypingSuffix := " others" + ManyTypingSuffix
  const OnlineSuffix := " online"

  /** The typing line for the names typing, in the order they started. */
  function TypingText(names: seq<string>): (r: string)
    ensures r == "" <==> names == []
    ensures names != [] ==> |names[0]| <= |r| && r[..|names[0]|] == names[0]
    ensures |names| == 1 ==> EndsWith(r, OneTypingSuffix) && |r| == |names[0]| + |OneTypingSuffix|
    ensures |names| >= 2 ==> EndsWith(r, ManyTypingSuffix)
    ensures |names| >= 2 ==> |names[0]| + 5 <= |r| && r[|names[0]|..|names[0]| + 5] == " and "
    ensures |names| == 2 ==> |r| == |names[0]| + |" and "| + |names[1]| + |ManyTypingSuffix|
    ensures |names| >= 3 ==> EndsWith(r, OthersTypingSuffix)
    ensures |names| >= 3 ==>
              |r| == |names[0]| + |" and "| + |NatToString(|names| - 1)| + |OthersTypingSuffix|
  {
    if |names| == 0 then ""
    else if |names| == 1 then names[0] + OneTypingSuffix
    else
      var others := if |names| == 2 then names[1] else NatToString(|names| - 1);
      var suffix := if |names| == 2 then ManyTypingSuffix else OthersTypingSuffix;
      var r := names[0] + " and " + others + suffix;
      FourPieces(names[0], " and ", others, suffix);
      assert EndsWith(suffix, ManyTypingSuffix) by {
        assert OthersTypingSuffix[|" others"|..] == ManyTypingSuffix;
      }
      EndsWithTransitive(r, suffix, ManyTypingSuffix);
      r
  }

  /** With two typists, the second name follows the first after " and ". */
  lemma TwoTypistsBothNamed(names: seq<string>)
    requires |names| == 2
    ensures var r := TypingText(names);
            var k := |names[0]| + |" and "|;
            k + |names[1]| <= |r| && r[k..k + |names[1]|] == names[1]
  {
  }

  /** With three or more typists, the number after " and " reads back as how many others there are. */
  lemma ManyTypistsCountReadsBack(names: seq<string>)
    requires |names| >= 3
    ensures var r := TypingText(names);
            var k := |names[0]| + |" and "|;
            && k <= |r| - |OthersTypingSuffix|
            && (forall i :: k <= i < |r| - |OthersTypingSuffix| ==> IsDigit(r[i]))
            && ParseDecimal(r[k..|r| - |OthersTypingSuffix|]) == |names| - 1
  {
    var r := TypingText(names);
    var k := |names[0]| + |" and "|;
    assert r[k..|r| - |OthersTypingSuffix|] == NatToString(|names| - 1);
    ParseNatToString(|names| - 1);
  }

  /** "N user(s) online" for a list of `count` users. */
  function UserCountText(count: nat): (r: string)
    ensures EndsWith(r, OnlineSuffix)
    ensures count == 1 <==> r == "1 user online"
    ensures count != 1 ==> EndsWith(r, " users" + OnlineSuffix)
                           && |r| == |NatToString(count)| + |" users" + OnlineSuffix|
    ensures var n := NatToString(count);
            |n| < |r| && r[..|n|] == n && r[|n|] == ' '
  {
    var n := NatToString(count);
    if count == 1 then
      assert n == "1";
      n + " user" + OnlineSuffix
    else
      var r := n + " users" + OnlineSuffix;
      FourPieces(n, " users", "", OnlineSuffix);
      assert n + " users" + "" + OnlineSuffix == r;
      assert EndsWith(r, " users" + OnlineSuffix) by {
        assert r[|n|..] == " users" + OnlineSuffix;
      }
      assert |r| != |"1 user online"|;
      r
  }

  /** The leading digits of the user count read back as the count. */
  lemma UserCountReadsBack(count: nat)
    ensures var r := UserCountText(count);
            var n := |NatToString(count)|;
            (forall i :: 0 <= i < n ==> IsDigit(r[i])) && ParseDecimal(r[..n]) == count
  {
    ParseNatToString(count);
  }

  /** One rendered bubble. */
  datatype Bubble = Bubble(key: string, style: MessageView.MessageClass, name: string,
                           content: string, timestamp: int)

  /** The message area: placeholders, the empty state, or bubbles. */
  datatype ListView = Skeletons(count: nat) | EmptyState | Bubbles(items: seq<Bubble>)

  function RenderMessage(m: MessageView.Message, currentUser: string): (b: Bubble)
    ensures b.style == MessageView.ClassOf(m, currentUser)
    ensures b.name == MessageView.DisplayName(m, currentUser)
    ensures b.key == m.id && b.content == m.content && b.timestamp == m.timestamp
  {
    Bubble(m.id, MessageView.ClassOf(m, currentUser), MessageView.DisplayName(m, currentUser),
           m.content, m.timestamp)
  }

  /** One bubble per message, in log order. */
  function RenderAll(messages: seq<MessageView.Message>, currentUser: string): (r: seq<Bubble>)
    ensures |r| == |messages|
    ensures forall i :: 0 <= i < |messages| ==> r[i] == RenderMessage(messages[i], currentUser)
    decreases |messages|
  {
    if messages == [] then []
    else RenderAll(messages[..|messages| - 1], currentUser)
         + [RenderMessage(messages[|messages| - 1], currentUser)]
  }

  /** The message area for a session state. */
  function MessageList(isLoading: bool, messages: seq<MessageView.Message>, currentUser: string): (v: ListView)
    ensures v.Skeletons? <==> isLoading
    ensures v.Skeletons? ==> v.count == SkeletonCount
    ensures v.EmptyState? <==> !isLoading && messages == []
    ensures v.Bubbles? ==> |v.items| == |messages|
    ensures v.Bubbles? ==>
              forall i :: 0 <= i < |messages| ==> v.items[i] == RenderMessage(messages[i], currentUser)
  {
    if isLoading then Skeletons(SkeletonCount)
    else if messages == [] then EmptyState
    else Bubbles(RenderAll(messages, currentUser))
  }

  /** An arriving message adds one bubble at the bottom and leaves the ones above untouched. */
  lemma ArrivalAddsBubbleAtEnd(messages: seq<MessageView.Message>, m: MessageView.Message, currentUser: string)
    requires messages != []
    ensures MessageList(false, messages + [m], currentUser).items
            == MessageList(false, messages, currentUser).items + [RenderMessage(m, currentUser)]
  {
    var a := MessageList(false, messages + [m], currentUser).items;
    var b := MessageList(false, messages, currentUser).items + [RenderMessage(m, currentUser)];
    assert |a| == |b|;
    forall i | 0 <= i < |a| ensures a[i] == b[i] {
      if i < |messages| {
        assert (messages + [m])[i] == messages[i];
      }
    }
  }

  /** The view of a session's message area. */
  function SessionMessageList(s: ChatSession.Session): ListView {
    MessageList(s.isLoading, s.messages, s.username)
  }

  /** The typing indicator is shown exactly when someone is typing. */
  predicate TypingIndicatorShown(s: ChatSession.Session)
    ensures TypingIndicatorShown(s) <==> |s.typingUsers| > 0
  {
    TypingText(s.typingUsers) != ""
  }

  /** The send button is live: something to send, connected, and not loading. */
  predicate SendButtonEnabled(s: ChatSession.Session)
    ensures SendButtonEnabled(s) <==> Trim(s.draft) != [] && s.isConnected && !s.isLoading
    ensures SendButtonEnabled(s) && s.hasSocket ==> ChatSession.CanSend(s)
  {
    !IsBlank(s.draft) && s.isConnected && !s.isLoading
  }

  /**
   * The reconnect button in the status bar is offered whenever the session is
   * not connected; the one beside the error line also needs an error to show.
   */
  predicate ReconnectOffered(s: ChatSession.Session)
    ensures ReconnectOffered(s) ==> !SendButtonEnabled(s) && !ChatSession.CanSend(s)
    ensures ReconnectOffered(s) <==> !s.isConnected
  {
    !s.isConnected
  }
}

=== FILE: join_form.dfy ===
/**
 * The entry screen's join action: validate the name and room code, store the
 * trimmed name, and navigate to the room's chat route.
 *
 * Persisting the name and building the route are effects that can fail in a
 * browser; both are parameters here: `storageWorks` says whether the storage
 * write succeeds, and `encode` is the URI-component encoder, `None` where it
 * would throw.
 */
module JoinForm {
  import opened Wrappers
  import opened Text

  const MaxFieldLength: nat := 20
  const ChatRoutePrefix := "/chat/"
  const EmptyFieldAlert := "Please enter both username and room code"
  const TooLongAlert := "Username and room code must be less than 20 characters"
  const JoinFailedAlert := "Failed to join room. Please try again."

  /**
   * What a join attempt leaves behind: an alert and nothing else; an alert
   * after the name may already have been stored; or the stored name and the
   * route navigated to.
   */
  datatype JoinOutcome =
    | Rejected(alert: string)
    | Failed(stored: Option<string>, alert: string)
    | Joined(name: string, target: string)
  {
    /** The name persisted by this attempt, if any. */
    function StoredName(): Option<string> {
      match this
      case Rejected(_) => None
      case Failed(stored, _) => stored
      case Joined(name, _) => Some(name)
    }
  }

  /** Either field is empty once whitespace is trimmed. */
  predicate HasBlankField(username: string, roomCode: string) {
    IsBlank(username) || IsBlank(roomCode)
  }

  /** Either raw, untrimmed field is longer than the limit. */
  predicate HasLongField(username: string, roomCode: string) {
    |username| > MaxFieldLength || |roomCode| > MaxFieldLength
  }

  /** Both checks pass. */
  predicate Acceptable(username: string, roomCode: string) {
    !HasBlankField(username, roomCode) && !HasLongField(username, roomCode)
  }

  /** The join handler, applied to the two raw form fields. */
  function HandleJoin(username: string, roomCode: string, storageWorks: bool,
                      encode: string -> Option<string>): (r: JoinOutcome)
    ensures r.Rejected? <==> !Acceptable(username, roomCode)
    ensures HasBlankField(username, roomCode) ==> r == Rejected(EmptyFieldAlert)
    ensures !HasBlankField(username, roomCode) && HasLongField(username, roomCode) ==>
              r == Rejected(TooLongAlert)
    ensures r.Joined? <==> Acceptable(username, roomCode) && storageWorks
                            && encode(Trim(roomCode)).Some?
    ensures r.Joined? ==> r.target == ChatRoutePrefix + encode(Trim(roomCode)).value
    ensures r.StoredName().Some? ==>
              && r.StoredName().value == Trim(username)
              && 0 < |r.StoredName().value| <= MaxFieldLength
    ensures r.Failed? ==> r.alert == JoinFailedAlert
                          && (r.stored.Some? <==> storageWorks)
  {
    if HasBlankField(username, roomCode) then Rejected(EmptyFieldAlert)
    else if HasLongField(username, roomCode) then Rejected(TooLongAlert)
    else
      var name := Prefix(Trim(username), MaxFieldLength);
      var code := Prefix(Trim(roomCode), MaxFieldLength);
      assert name == Trim(username) && code == Trim(roomCode);
      if !storageWorks then Failed(None, JoinFailedAlert)
      else
        match encode(code)
        case None => Failed(Some(name), JoinFailedAlert)
        case Some(path) => Joined(name, ChatRoutePrefix + path)
  }

  /** The limit is inclusive: two non-blank fields of exactly 20 characters are accepted. */
  lemma ExactlyTwentyAccepted(username: string, roomCode: string)
    requires |username| == MaxFieldLength && |roomCode| == MaxFieldLength
    requires !IsBlank(username) && !IsBlank(roomCode)
    ensures Acceptable(username, roomCode)
  {
  }

  /** Emptiness is checked first: a blank field is reported as blank even when the other is too long. */
  lemma BlankReportedBeforeLength(username: string, roomCode: string, storageWorks: bool,
                                  encode: string -> Option<string>)
    requires HasBlankField(username, roomCode)
    requires HasLongField(username, roomCode)
    ensures HandleJoin(username, roomCode, storageWorks, encode) == Rejected(EmptyFieldAlert)
  {
  }

  /** Once accepted, cutting the trimmed fields to 20 characters changes nothing. */
  lemma SanitisingCutIsNoOp(username: string, roomCode: string)
    requires Acceptable(username, roomCode)
    ensures Prefix(Trim(username), MaxFieldLength) == Trim(username)
    ensures Prefix(Trim(roomCode), MaxFieldLength) == Trim(roomCode)
    ensures 0 < |Trim(roomCode)| <= MaxFieldLength
  {
  }

  /** Surrounding whitespace never reaches the stored name or the route. */
  lemma JoinIgnoresSurroundingWhitespace(username: string, roomCode: string,
                                         encode: string -> Option<string>)
    requires Acceptable(username, roomCode)
    requires encode(Trim(roomCode)).Some?
    ensures var r := HandleJoin(username, roomCode, true, encode);
            r.Joined? && r.name == Trim(Trim(username))
            && r.target == ChatRoutePrefix + encode(Trim(Trim(roomCode))).value
  {
    var r := HandleJoin(username, roomCode, true, encode);
    assert r.Joined? && r.name == Trim(username) && r.target == ChatRoutePrefix + encode(Trim(roomCode)).value;
    TrimIdempotent(username);
    TrimIdempotent(roomCode);
  }
}

=== FILE: message_view.dfy ===
/**
 * One chat message as the server delivers it, and how a message bubble is
 * classified and labelled relative to the signed-in user.
 */
module MessageView {
  import opened Wrappers

  /**
   * A message record. `kind` and `author` are the JSON fields `type` and
   * `username`, either of which may be absent.
   */
  datatype Message = Message(id: string, kind: Option<string>, author: Option<string>,
                             content: string, timestamp: int)

  /** The three bubble styles. */
  datatype MessageClass = SystemClass | SelfClass | OtherClass

  /** The CSS class name of a style. */
  function ClassName(c: MessageClass): string {
    match c
    case SystemClass => "system"
    case SelfClass => "self"
    case OtherClass => "other"
  }

  predicate IsSystem(m: Message) {
    m.kind == Some("system")
  }

  predicate IsOwn(m: Message, currentUser: string) {
    m.author == Some(currentUser)
  }

  /** Style of `m` for `currentUser`: system notices first, then own versus others' messages. */
  function ClassOf(m: Message, currentUser: string): (c: MessageClass)
    ensures c == SystemClass <==> IsSystem(m)
    ensures c == SelfClass <==> !IsSystem(m) && IsOwn(m, currentUser)
    ensures c == OtherClass <==> !IsSystem(m) && !IsOwn(m, currentUser)
  {
    if IsSystem(m) then SystemClass
    else if IsOwn(m, currentUser) then SelfClass
    else OtherClass
  }

  /** The name shown in the bubble header; an absent author renders as nothing. */
  function DisplayName(m: Message, currentUser: string): (r: string)
    ensures IsSystem(m) ==> r == "System"
    ensures !IsSystem(m) && IsOwn(m, currentUser) ==> r == "You"
    ensures !IsSystem(m) && !IsOwn(m, currentUser) ==> r == m.author.GetOr("")
  {
    if IsSystem(m) then "System"
    else if IsOwn(m, currentUser) then "You"
    else m.author.GetOr("")
  }

  /** A system notice looks the same whoever is named as its author. */
  lemma SystemIgnoresAuthor(m: Message, author: Option<string>, currentUser: string)
    requires IsSystem(m)
    ensures ClassOf(m.(author := author), currentUser) == SystemClass
    ensures DisplayName(m.(author := author), currentUser) == "System"
  {
  }

  /** Class and label agree: "self" is always labelled "You", "system" always "System". */
  lemma ClassAndLabelAgree(m: Message, currentUser: string)
    ensures ClassOf(m, currentUser) == SelfClass ==> DisplayName(m, currentUser) == "You"
    ensures ClassOf(m, currentUser) == SystemClass ==> DisplayName(m, currentUser) == "System"
    ensures ClassOf(m, currentUser) == OtherClass && m.author.Some? ==> DisplayName(m, currentUser) == m.author.value
    ensures ClassName(ClassOf(m, currentUser)) in {"system", "self", "other"}
  {
  }

  /** The same message is "self" for its author and "other" for everybody else. */
  lemma OwnershipIsPerViewer(m: Message, a: string, b: string)
    requires !IsSystem(m) && m.author == Some(a) && a != b
    ensures ClassOf(m, a) == SelfClass && ClassOf(m, b) == OtherClass
    ensures DisplayName(m, b) == a
  {
  }
}

=== FILE: server_url.dfy ===
/**
 * Choice of the chat server's address: an explicit build-time setting wins,
 * otherwise the address is derived from the page's own location on port 5000.
 * The environment value, hostname and protocol are parameters, not ambient state.
 */
module ServerUrl {
  import opened Wrappers
  import opened Text

  const ServerPort := ":5000"
  const LoopbackUrl := "http://localhost:5000"

  /** The configured value is used as is: present, non-empty and not the keyword "auto". */
  predicate IsOverride(env: Option<string>) {
    env.Some? && env.value != "" && env.value != "auto"
  }

  /** Host names that denote the local machine. */
  predicate IsLoopback(hostname: string) {
    hostname == "localhost" || hostname == "127.0.0.1"
  }

  /**
   * The server address for a configured value `env` (None when unset) and a
   * page served from `protocol` (e.g. "https:") and `hostname`.
   */
  function GetServerUrl(env: Option<string>, hostname: string, protocol: string): (r: string)
    ensures IsOverride(env) ==> r == env.value
    ensures !IsOverride(env) ==> EndsWith(r, ServerPort)
    ensures !IsOverride(env) && IsLoopback(hostname) ==> r == LoopbackUrl
    ensures !IsOverride(env) && !IsLoopback(hostname) ==>
              && |r| == |protocol| + 2 + |hostname| + |ServerPort|
              && r[..|protocol|] == protocol
              && r[|protocol|..|protocol| + 2] == "//"
              && r[|protocol| + 2..|r| - |ServerPort|] == hostname
  {
    if IsOverride(env) then env.value
    else if IsLoopback(hostname) then LoopbackUrl
    else protocol + "//" + hostname + ServerPort
  }

  /** An override is returned unchanged whatever page the client is served from. */
  lemma OverrideIgnoresLocation(env: Option<string>, h1: string, p1: string, h2: string, p2: string)
    requires IsOverride(env)
    ensures GetServerUrl(env, h1, p1) == GetServerUrl(env, h2, p2) == env.value
  {
  }

  /** "auto" and the empty value behave exactly like an unset variable. */
  lemma AutoAndEmptyFallThrough(hostname: string, protocol: string)
    ensures GetServerUrl(Some("auto"), hostname, protocol) == GetServerUrl(None, hostname, protocol)
    ensures GetServerUrl(Some(""), hostname, protocol) == GetServerUrl(None, hostname, protocol)
  {
  }

  /** On a loopback host the page protocol plays no part. */
  lemma LoopbackIgnoresProtocol(env: Option<string>, hostname: string, p1: string, p2: string)
    requires !IsOverride(env) && IsLoopback(hostname)
    ensures GetServerUrl(env, hostname, p1) == GetServerUrl(env, hostname, p2)
  {
  }

  /** Different non-loopback hosts give different location-based addresses. */
  lemma LocationUrlDeterminesHost(h1: string, h2: string, protocol: string)
    requires !IsLoopback(h1) && !IsLoopback(h2)
    requires GetServerUrl(None, h1, protocol) == GetServerUrl(None, h2, protocol)
    ensures h1 == h2
  {
    var r := GetServerUrl(None, h1, protocol);
    assert h1 == r[|protocol| + 2..|r| - |ServerPort|];
  }
}

=== FILE: session_properties.dfy ===
/**
 * Properties of the chat session that hold across whole event sequences:
 * the typing set tracks each name's last signal, the outbox never carries
 * two typing starts without a stop between them, the log only grows between
 * history loads, every (re)connection joins the room exactly once, and the
 * send guard holds however the draft reads.
 */
module SessionProperties {
  import opened Wrappers
  import opened Text
  import opened TypingSet
  import opened ChatSession
  import MessageView
  import ChatView

  // ----- Run -----

  /** Handling `a` then `b` is handling `a + b`. */
  lemma {:induction false} RunConcat(s: Session, a: seq<Event>, b: seq<Event>)
    ensures Run(s, a + b) == Run(Run(s, a), b)
    decreases |b|
  {
    if b == [] {
      assert a + b == a;
    } else {
      var b' := b[..|b| - 1];
      assert (a + b)[..|a + b| - 1] == a + b';
      RunConcat(s, a, b');
    }
  }

  // ----- typing set -----

  /**
   * The last typing signal the server sent about `name` in `events`:
   * Some(true) for a start, Some(false) for a stop, None if there was none.
   */
  function LastTypingSignal(events: seq<Event>, name: string): Option<bool>
    decreases |events|
  {
    if events == [] then None
    else
      var e := events[|events| - 1];
      if e == Server(UserTyping(name)) then Some(true)
      else if e == Server(UserStoppedTyping(name)) then Some(false)
      else LastTypingSignal(events[..|events| - 1], name)
  }

  /**
   * After any event sequence, a name is in the typing set exactly when its
   * last signal was a start, or, with no signal, when it was there before.
   */
  lemma {:induction false} TypingSetFollowsLastSignal(s: Session, events: seq<Event>, name: string)
    ensures name in Run(s, events).typingUsers <==>
              match LastTypingSignal(events, name)
              case Some(started) => started
              case None => name in s.typingUsers
    decreases |events|
  {
    if events != [] {
      TypingSetFollowsLastSignal(s, events[..|events| - 1], name);
    }
  }

  /** Starting from nobody typing: the set is exactly the names whose last signal was a start. */
  lemma TypingSetFromEmpty(s: Session, events: seq<Event>, name: string)
    requires s.typingUsers == []
    ensures name in Run(s, events).typingUsers <==> LastTypingSignal(events, name) == Some(true)
  {
    TypingSetFollowsLastSignal(s, events, name);
  }

  /** No name is ever listed twice. */
  lemma {:induction false} TypingSetStaysDuplicateFree(s: Session, events: seq<Event>)
    requires NoDuplicates(s.typingUsers)
    ensures NoDuplicates(Run(s, events).typingUsers)
    decreases |events|
  {
    if events != [] {
      TypingSetStaysDuplicateFree(s, events[..|events| - 1]);
    }
  }

  /** The example of start(A), start(B), stop(A): only B is left typing. */
  lemma TypingExample(s: Session)
    requires s.typingUsers == []
    ensures var s1 := Receive(s, UserTyping("A"));
            var s2 := Receive(s1, UserTyping("B"));
            Receive(s2, UserStoppedTyping("A")).typingUsers == ["B"]
  {
    assert Add([], "A") == ["A"];
    assert Add(["A"], "B") == ["A", "B"] by {
      assert "B" !in ["A"];
    }
    assert Remove(["A", "B"], "A") == ["B"] by {
      assert Remove(["A", "B"], "A") == Remove(["B"], "A");
      assert "A" !in ["B"];
    }
  }

  // ----- connection flag and presence list -----

  /**
   * The last connection signal in `events`: Some(true) for a connect or
   * reconnect, Some(false) for a disconnect or failed connect, None if there
   * was none.
   */
  function LastConnectionSignal(events: seq<Event>): Option<bool>
    decreases |events|
  {
    if events == [] then None
    else
      var e := events[|events| - 1];
      if e == Server(Connect) || e == Server(Reconnect) then Some(true)
      else if e == Server(ConnectError) || (e.Server? && e.ev.Disconnect?) then Some(false)
      else LastConnectionSignal(events[..|events| - 1])
  }

  /** The connection flag is set by the last connection signal, and by nothing else. */
  lemma {:induction false} ConnectedFollowsLastSignal(s: Session, events: seq<Event>)
    ensures Run(s, events).isConnected ==
              match LastConnectionSignal(events)
              case Some(connected) => connected
              case None => s.isConnected
    decreases |events|
  {
    if events != [] {
      ConnectedFollowsLastSignal(s, events[..|events| - 1]);
    }
  }

  /** The last presence list the server sent in `events` (an absent list meaning nobody). */
  function LastPresence(events: seq<Event>): Option<seq<string>>
    decreases |events|
  {
    if events == [] then None
    else
      var e := events[|events| - 1];
      if e.Server? && e.ev.RoomUsers? then Some(e.ev.list.GetOr([]))
      else LastPresence(events[..|events| - 1])
  }

  /** The user list is the last presence list received, or the one from before if none came. */
  lemma {:induction false} UsersFollowLastPresence(s: Session, events: seq<Event>)
    ensures Run(s, events).users == LastPresence(events).GetOr(s.users)
    decreases |events|
  {
    if events != [] {
      UsersFollowLastPresence(s, events[..|events| - 1]);
    }
  }

  // ----- typing debounce -----

  /** No two typing starts in `out` without a typing stop somewhere between them. */
  predicate StartsAlternate(out: seq<Outbound>) {
    forall i, j :: 0 <= i < j < |out| && out[i] == TypingStart && out[j] == TypingStart ==>
      TypingStop in out[i + 1..j]
  }

  /** Every typing start in `out` has been followed by a stop. */
  predicate StartsClosed(out: seq<Outbound>) {
    forall i :: 0 <= i < |out| && out[i] == TypingStart ==> TypingStop in out[i + 1..]
  }

  /**
   * The debounce invariant: the typing flag and the timer go together, the
   * outbox alternates, and when not typing no start is left open.
   */
  predicate DebounceOk(s: Session) {
    && s.isTyping == s.timerPending
    && StartsAlternate(s.outbox)
    && (!s.isTyping ==> StartsClosed(s.outbox))
  }

  lemma AppendKeepsAlternation(out: seq<Outbound>, e: Outbound)
    requires StartsAlternate(out)
    requires e == TypingStart ==> StartsClosed(out)
    ensures StartsAlternate(out + [e])
  {
    var o := out + [e];
    forall i, j | 0 <= i < j < |o| && o[i] == TypingStart && o[j] == TypingStart
      ensures TypingStop in o[i + 1..j]
    {
      if j < |out| {
        assert o[i + 1..j] == out[i + 1..j];
      } else {
        assert out[i] == TypingStart;
        assert o[i + 1..j] == out[i + 1..];
      }
    }
  }

  lemma AppendKeepsClosed(out: seq<Outbound>, e: Outbound)
    requires StartsClosed(out) && e != TypingStart
    ensures StartsClosed(out + [e])
  {
    var o := out + [e];
    forall i | 0 <= i < |o| && o[i] == TypingStart ensures TypingStop in o[i + 1..] {
      assert out[i] == TypingStart;
      var k :| i + 1 <= k < |out| && out[k] == TypingStop;
      assert o[k] == TypingStop;
    }
  }

  lemma AppendStopCloses(out: seq<Outbound>)
    ensures StartsClosed(out + [TypingStop])
  {
    var o := out + [TypingStop];
    forall i | 0 <= i < |o| && o[i] == TypingStart ensures TypingStop in o[i + 1..] {
      assert o[|o| - 1] == TypingStop;
    }
  }

  /** Appending a join leaves the typing shape of the outbox as it was. */
  lemma AppendJoinKeeps(s: Session, r: Session)
    requires DebounceOk(s)
    requires r.outbox == s.outbox + [JoinRoom(s.username, s.roomCode)]
    requires r.isTyping == s.isTyping && r.timerPending == s.timerPending
    ensures DebounceOk(r)
  {
    AppendKeepsAlternation(s.outbox, JoinRoom(s.username, s.roomCode));
    if !s.isTyping {
      AppendKeepsClosed(s.outbox, JoinRoom(s.username, s.roomCode));
    }
  }

  /** Every event keeps the debounce invariant. */
  lemma StepKeepsDebounce(s: Session, e: Event)
    requires DebounceOk(s)
    ensures DebounceOk(Step(s, e))
  {
    var r := Step(s, e);
    match e
    case Server(ev) =>
      if ev.Connect? || ev.Reconnect? { AppendJoinKeeps(s, r); }
    case Edit(text) =>
      var s' := s.(draft := text);
      if s'.hasSocket && s'.isConnected && !s'.isTyping {
        AppendKeepsAlternation(s.outbox, TypingStart);
      }
    case Submit => SendKeepsDebounce(s);
    case KeyPress(key, shift) => SendKeepsDebounce(s);
    case TypingTimerFired =>
      if s.timerPending {
        AppendKeepsAlternation(s.outbox, TypingStop);
        AppendStopCloses(s.outbox);
      }
    case _ =>
  }

  lemma SendKeepsDebounce(s: Session)
    requires DebounceOk(s)
    ensures DebounceOk(HandleSend(s))
  {
    if CanSend(s) {
      var m := SendMessage(Payload(s.draft));
      var r := HandleSend(s);
      assert r.outbox == s.outbox + [m] + [TypingStop] && !r.isTyping && !r.timerPending;
      AppendKeepsAlternation(s.outbox, m);
      AppendKeepsAlternation(s.outbox + [m], TypingStop);
      AppendStopCloses(s.outbox + [m]);
    }
  }

  /** The debounce invariant holds after any event sequence that starts from it. */
  lemma {:induction false} RunKeepsDebounce(s: Session, events: seq<Event>)
    requires DebounceOk(s)
    ensures DebounceOk(Run(s, events))
    decreases |events|
  {
    if events != [] {
      RunKeepsDebounce(s, events[..|events| - 1]);
      StepKeepsDebounce(Run(s, events[..|events| - 1]), events[|events| - 1]);
    }
  }

  /** From the moment the chat page opens, the client never sends two typing starts without a stop between them. */
  lemma NeverTwoTypingStarts(stored: Option<string>, roomCode: string, env: Option<string>,
                             hostname: string, protocol: string, events: seq<Event>)
    requires Mount(stored, roomCode, env, hostname, protocol).Started?
    ensures StartsAlternate(Run(Mount(stored, roomCode, env, hostname, protocol).session, events).outbox)
  {
    RunKeepsDebounce(Mount(stored, roomCode, env, hostname, protocol).session, events);
  }

  /** A keystroke while disconnected emits nothing and arms no timer. */
  lemma DisconnectedKeystrokeIsSilent(s: Session, text: string)
    requires !s.isConnected
    ensures Step(s, Edit(text)).outbox == s.outbox
    ensures Step(s, Edit(text)).timerPending == s.timerPending
  {
  }

  /** Repeated keystrokes send one typing start; the timer then sends the one stop. */
  lemma KeystrokesThenTimer(s: Session, a: string, b: string)
    requires s.hasSocket && s.isConnected && !s.isTyping
    ensures var s1 := Step(s, Edit(a));
            var s2 := Step(s1, Edit(b));
            var s3 := Step(s2, TypingTimerFired);
            && s1.outbox == s2.outbox == s.outbox + [TypingStart] && s2.timerPending
            && s3.outbox == s.outbox + [TypingStart, TypingStop] && !s3.isTyping && !s3.timerPending
  {
  }

  // ----- message log -----

  /** The message an event delivers to the log, if it is a `message` or `systemMessage` event. */
  function Arrived(e: Event): seq<MessageView.Message> {
    match e
    case Server(NewMessage(m)) => [m]
    case Server(SystemMessage(m)) => [m]
    case _ => []
  }

  /** The messages delivered by `message`/`systemMessage` events, in order. */
  function Arrivals(events: seq<Event>): seq<MessageView.Message>
    decreases |events|
  {
    if events == [] then [] else Arrivals(events[..|events| - 1]) + Arrived(events[|events| - 1])
  }

  predicate NoHistoryLoad(events: seq<Event>) {
    forall i :: 0 <= i < |events| ==> !(events[i].Server? && events[i].ev.LoadMessages?)
  }

  /** Any event other than a history load appends what it delivers to the log. */
  lemma StepLogsArrival(s: Session, e: Event)
    requires !(e.Server? && e.ev.LoadMessages?)
    ensures Step(s, e).messages == s.messages + Arrived(e)
  {
    match e
    case Server(ev) =>
      assert Arrived(e) == if ev.NewMessage? then [ev.msg] else if ev.SystemMessage? then [ev.notice] else [];
    case _ =>
      assert Arrived(e) == [];
  }

  /** A history load replaces the log and ends loading. */
  lemma HistoryLoadReplacesLog(s: Session, history: Option<seq<MessageView.Message>>)
    ensures Step(s, Server(LoadMessages(history))).messages == history.GetOr([])
    ensures !Step(s, Server(LoadMessages(history))).isLoading
  {
    assert Step(s, Server(LoadMessages(history))) == OnLoadMessages(s, history);
  }

  /** A sequence without history loads has none in any prefix either. */
  lemma NoHistoryLoadPrefix(events: seq<Event>, n: nat)
    requires NoHistoryLoad(events) && n <= |events|
    ensures NoHistoryLoad(events[..n])
  {
    forall i | 0 <= i < n ensures !(events[..n][i].Server? && events[..n][i].ev.LoadMessages?) {
      assert events[..n][i] == events[i];
    }
  }

  /** The last event of a run without history loads appends what it delivers. */
  lemma RunLogsLastArrival(s: Session, events: seq<Event>)
    requires events != [] && NoHistoryLoad(events)
    ensures Run(s, events).messages == Run(s, events[..|events| - 1]).messages + Arrived(events[|events| - 1])
  {
    assert !(events[|events| - 1].Server? && events[|events| - 1].ev.LoadMessages?);
    StepLogsArrival(Run(s, events[..|events| - 1]), events[|events| - 1]);
  }

  /** `Arrivals` read from the end, with the log in front. */
  lemma ArrivalsSnoc(log: seq<MessageView.Message>, events: seq<Event>)
    requires events != []
    ensures log + Arrivals(events)
            == log + Arrivals(events[..|events| - 1]) + Arrived(events[|events| - 1])
  {
    ConcatAssociates(log, Arrivals(events[..|events| - 1]), Arrived(events[|events| - 1]));
  }

  lemma ConcatAssociates(a: seq<MessageView.Message>, b: seq<MessageView.Message>, c: seq<MessageView.Message>)
    ensures a + (b + c) == a + b + c
  {
  }

  /** Without a history load the log only grows: the old log followed by what arrived, in arrival order. */
  lemma {:induction false} LogIsAppendOnly(s: Session, events: seq<Event>)
    requires NoHistoryLoad(events)
    ensures Run(s, events).messages == s.messages + Arrivals(events)
    decreases |events|
  {
    if events != [] {
      NoHistoryLoadPrefix(events, |events| - 1);
      LogIsAppendOnly(s, events[..|events| - 1]);
      RunLogsLastArrival(s, events);
      ArrivalsSnoc(s.messages, events);
    }
  }

  /** After the last history load, the log is that history followed by what arrived since. */
  lemma LogAfterHistory(s: Session, before: seq<Event>, history: Option<seq<MessageView.Message>>,
                        after: seq<Event>)
    requires NoHistoryLoad(after)
    ensures Run(s, before + [Server(LoadMessages(history))] + after).messages
            == history.GetOr([]) + Arrivals(after)
    ensures !Run(s, before + [Server(LoadMessages(history))]).isLoading
  {
    var through := before + [Server(LoadMessages(history))];
    var loaded := Run(s, through);
    assert through[..|before|] == before;
    assert loaded == Step(Run(s, before), Server(LoadMessages(history)));
    HistoryLoadReplacesLog(Run(s, before), history);
    RunConcat(s, through, after);
    LogIsAppendOnly(loaded, after);
  }

  /** An empty or absent history is shown as the empty state, not as still loading. */
  lemma EmptyHistoryIsLoadedNotLoading(s: Session)
    ensures ChatView.SessionMessageList(Step(s, Server(LoadMessages(Some([]))))) == ChatView.EmptyState
    ensures ChatView.SessionMessageList(Step(s, Server(LoadMessages(None)))) == ChatView.EmptyState
  {
  }

  // ----- presence -----

  /** A presence update applied twice leaves the session as applying it once. */
  lemma RoomUsersIdempotent(s: Session, list: Option<seq<string>>)
    ensures Step(Step(s, Server(RoomUsers(list))), Server(RoomUsers(list))) == Step(s, Server(RoomUsers(list)))
    ensures Step(s, Server(RoomUsers(list))).users == list.GetOr([])
  {
  }

  /** A history load applied twice leaves the session as applying it once. */
  lemma LoadMessagesIdempotent(s: Session, history: Option<seq<MessageView.Message>>)
    ensures Step(Step(s, Server(LoadMessages(history))), Server(LoadMessages(history)))
            == Step(s, Server(LoadMessages(history)))
  {
  }

  // ----- connection -----

  /** The number of room joins in an outbox. */
  function Joins(out: seq<Outbound>): nat
    decreases |out|
  {
    if out == [] then 0 else Joins(out[..|out| - 1]) + (if out[|out| - 1].JoinRoom? then 1 else 0)
  }

  lemma JoinsSnoc(a: seq<Outbound>, x: Outbound)
    ensures Joins(a + [x]) == Joins(a) + (if x.JoinRoom? then 1 else 0)
  {
    assert (a + [x])[..|a|] == a;
  }

  /** The connect and reconnect signals in a sequence of events. */
  function Connections(events: seq<Event>): nat
    decreases |events|
  {
    if events == [] then 0
    else Connections(events[..|events| - 1])
         + (if events[|events| - 1] in {Server(Connect), Server(Reconnect)} then 1 else 0)
  }

  /** One event adds a join to the outbox exactly when it is a connect or reconnect signal. */
  lemma StepJoins(s: Session, e: Event)
    ensures Joins(Step(s, e).outbox) == Joins(s.outbox) + (if e in {Server(Connect), Server(Reconnect)} then 1 else 0)
  {
    var r := Step(s, e);
    match e
    case Server(ev) =>
      if ev.Connect? || ev.Reconnect? {
        JoinsSnoc(s.outbox, JoinRoom(s.username, s.roomCode));
      }
    case Submit => SendAddsNoJoin(s);
    case KeyPress(key, shift) => SendAddsNoJoin(s);
    case Edit(text) =>
      if r.outbox != s.outbox { JoinsSnoc(s.outbox, TypingStart); }
    case TypingTimerFired =>
      if s.timerPending { JoinsSnoc(s.outbox, TypingStop); }
    case _ =>
  }

  lemma SendAddsNoJoin(s: Session)
    ensures Joins(HandleSend(s).outbox) == Joins(s.outbox)
  {
    if CanSend(s) {
      var m := SendMessage(Payload(s.draft));
      JoinsSnoc(s.outbox, m);
      JoinsSnoc(s.outbox + [m], TypingStop);
      assert HandleSend(s).outbox == s.outbox + [m] + [TypingStop];
    }
  }

  /** Over any event sequence, the room is joined exactly once per connect or reconnect signal. */
  lemma {:induction false} OneJoinPerConnection(s: Session, events: seq<Event>)
    ensures Joins(Run(s, events).outbox) == Joins(s.outbox) + Connections(events)
    decreases |events|
  {
    if events != [] {
      OneJoinPerConnection(s, events[..|events| - 1]);
      StepJoins(Run(s, events[..|events| - 1]), events[|events| - 1]);
    }
  }

  /** Connect, drop, reconnect: two joins in all, and the reconnect's is the latest thing sent. */
  lemma ReconnectRejoins(s: Session, reason: string)
    ensures var s1 := Step(s, Server(Connect));
            var s2 := Step(s1, Server(Disconnect(reason)));
            var s3 := Step(s2, Server(Reconnect));
            && Joins(s1.outbox) == Joins(s.outbox) + 1
            && Joins(s2.outbox) == Joins(s1.outbox)
            && Joins(s3.outbox) == Joins(s2.outbox) + 1
            && s3.outbox[|s3.outbox| - 1] == JoinRoom(s.username, s.roomCode)
            && s3.isConnected && s3.error == ""
  {
    var s1 := Step(s, Server(Connect));
    assert s1 == OnConnect(s);
    var s2 := Step(s1, Server(Disconnect(reason)));
    assert s2 == OnDisconnect(s1, reason);
    assert Step(s2, Server(Reconnect)) == OnReconnect(s2);
    StepJoins(s, Server(Connect));
    StepJoins(s1, Server(Disconnect(reason)));
    StepJoins(s2, Server(Reconnect));
  }

  /**
   * Leaving is for good: once the user has left, no later event restores the
   * stored name or returns to the chat page.
   */
  lemma {:induction false} LeaveIsFinal(s: Session, events: seq<Event>)
    ensures var r := Run(Step(s, LeaveRoom), events);
            r.storedUsername == None && r.page == HomePage
    decreases |events|
  {
    if events == [] {
      StepKeepsIdentityUnlessLeave(s, LeaveRoom);
    } else {
      LeaveIsFinal(s, events[..|events| - 1]);
      StepKeepsIdentityUnlessLeave(Run(Step(s, LeaveRoom), events[..|events| - 1]), events[|events| - 1]);
    }
  }

  /**
   * A failed connection attempt leaves the page usable for a retry: loading is
   * over, reconnect is offered, sending is off, and a later connect clears the error.
   */
  lemma ConnectErrorOffersRetry(s: Session)
    ensures var r := Step(s, Server(ConnectError));
            && r.error == ConnectFailedError && !r.isLoading
            && ChatView.ReconnectOffered(r) && !ChatView.SendButtonEnabled(r)
            && Step(r, Server(Connect)).isConnected && Step(r, Server(Connect)).error == ""
  {
    var r := Step(s, Server(ConnectError));
    assert r == OnConnectError(s);
    assert Step(r, Server(Connect)) == OnConnect(r);
  }

  /** A drop sets the terminal refresh error exactly when the server forced it. */
  lemma ForcedDisconnectSetsRefreshError(s: Session, reason: string)
    requires s.error != ForcedDisconnectError
    ensures var r := Step(s, Server(Disconnect(reason)));
            !r.isConnected && (r.error == ForcedDisconnectError <==> reason == ForcedDisconnectReason)
    ensures ChatView.ReconnectOffered(Step(s, Server(Disconnect(reason))))
  {
  }

  /** Retry progress and exhaustion change only the error line, which shows the attempt number. */
  lemma RetryEventsOnlyChangeError(s: Session, n: nat)
    ensures Step(s, Server(ReconnectAttempt(n))) == s.(error := ReconnectingText(n))
    ensures Step(s, Server(ReconnectFailed)) == s.(error := ReconnectFailedError)
  {
    assert Step(s, Server(ReconnectAttempt(n))) == Receive(s, ReconnectAttempt(n));
    assert Step(s, Server(ReconnectFailed)) == Receive(s, ReconnectFailed);
  }

  // ----- sending -----

  /** Without a connection nothing but a pending typing stop can leave the client: no join, no message, no start. */
  lemma DisconnectedSendsOnlyStops(s: Session, e: Event)
    requires !s.isConnected && e !in {Server(Connect), Server(Reconnect)}
    ensures var r := Step(s, e);
            forall k :: |s.outbox| <= k < |r.outbox| ==> r.outbox[k] == TypingStop
  {
  }

  /** A submitted draft is never sent while disconnected, whatever it says. */
  lemma NoSendWhileDisconnected(s: Session)
    requires !s.isConnected
    ensures Step(s, Submit) == s
    ensures Step(s, KeyPress("Enter", false)) == s
  {
  }

  /** Whitespace-only drafts are never sent, and leave the session untouched. */
  lemma BlankDraftNotSent(s: Session)
    requires IsBlank(s.draft)
    ensures Step(s, Submit) == s
  {
  }

  /** When the send button is live and the connection object exists, submitting sends the payload. */
  lemma EnabledButtonSends(s: Session)
    requires ChatView.SendButtonEnabled(s) && s.hasSocket
    ensures var r := Step(s, Submit);
            && r.outbox == s.outbox + [SendMessage(Payload(s.draft)), TypingStop]
            && 0 < |Payload(s.draft)| <= MaxMessageLength
            && r.draft == ""
  {
    assert Step(s, Submit) == HandleSend(s);
  }

  /** Shift+Enter and other keys do not send; plain Enter behaves as a submit. */
  lemma OnlyPlainEnterSends(s: Session, key: string, shift: bool)
    ensures Step(s, KeyPress(key, shift)) == if key == "Enter" && !shift then Step(s, Submit) else s
  {
  }

  // ----- a whole visit -----

  /** Connecting and loading an empty history: joined once, connected, and the empty state shows. */
  lemma ConnectThenEmptyHistory(s0: Session)
    ensures var s3 := Step(Step(Step(s0, SocketCreated), Server(Connect)), Server(LoadMessages(Some([]))));
            && s3.outbox == s0.outbox + [JoinRoom(s0.username, s0.roomCode)]
            && s3.hasSocket && s3.isConnected && !s3.isLoading && s3.messages == []
            && s3.isTyping == s0.isTyping && s3.username == s0.username
            && ChatView.SessionMessageList(s3) == ChatView.EmptyState
  {
    var s1 := Step(s0, SocketCreated);
    assert s1 == s0.(hasSocket := true);
    var s2 := Step(s1, Server(Connect));
    assert s2 == OnConnect(s1);
    var s3 := Step(s2, Server(LoadMessages(Some([]))));
    assert s3 == OnLoadMessages(s2, Some([]));
  }

  lemma SubmitIsSend(s: Session)
    ensures Step(s, Submit) == HandleSend(s)
  {
  }

  lemma EditIsTyping(s: Session, text: string)
    ensures Step(s, Edit(text)) == HandleTyping(s.(draft := text))
  {
  }

  lemma HiIsSentAsIs()
    ensures !IsBlank("hi") && Payload("hi") == "hi"
  {
    assert !IsWhitespace("hi"[0]);
    assert TrimStart("hi") == "hi";
    assert TrimEnd("hi") == "hi";
  }

  /** Typing "hi" and submitting it: one start, the message, one stop; the log is untouched. */
  lemma TypeAndSendHi(s: Session)
    requires s.hasSocket && s.isConnected && !s.isTyping
    ensures var r := Step(Step(s, Edit("hi")), Submit);
            && r.outbox == s.outbox + [TypingStart, SendMessage("hi"), TypingStop]
            && r.messages == s.messages && r.isLoading == s.isLoading && r.username == s.username
            && r.draft == "" && !r.isTyping
  {
    var s1 := Step(s, Edit("hi"));
    EditIsTyping(s, "hi");
    assert s1 == s.(draft := "hi", isTyping := true, timerPending := true, outbox := s.outbox + [TypingStart]);
    HiIsSentAsIs();
    assert CanSend(s1);
    SubmitIsSend(s1);
    assert Step(s1, Submit)
        == s1.(outbox := s1.outbox + [SendMessage("hi"), TypingStop], draft := "", isTyping := false, timerPending := false);
  }

  lemma MessageIsAppend(s: Session, m: MessageView.Message)
    ensures Step(s, Server(NewMessage(m))) == AppendMessage(s, m)
  {
  }

  /** Join "ABCD" as "alice", load an empty history, type and send "hi", receive it back as one's own. */
  lemma AliceSaysHi(s0: Session, m: MessageView.Message)
    requires s0.username == "alice" && s0.roomCode == "ABCD" && s0.outbox == [] && !s0.isTyping
    requires m == MessageView.Message("1", None, Some("alice"), "hi", 0)
    ensures var s3 := Step(Step(Step(s0, SocketCreated), Server(Connect)), Server(LoadMessages(Some([]))));
            var s6 := Step(Step(Step(s3, Edit("hi")), Submit), Server(NewMessage(m)));
            && ChatView.SessionMessageList(s3) == ChatView.EmptyState
            && s6.outbox == [JoinRoom("alice", "ABCD"), TypingStart, SendMessage("hi"), TypingStop]
            && s6.messages == [m]
            && ChatView.SessionMessageList(s6).Bubbles?
            && ChatView.SessionMessageList(s6).items[0].style == MessageView.SelfClass
            && ChatView.SessionMessageList(s6).items[0].name == "You"
  {
    var s3 := Step(Step(Step(s0, SocketCreated), Server(Connect)), Server(LoadMessages(Some([]))));
    ConnectThenEmptyHistory(s0);
    assert s3.hasSocket && s3.isConnected && !s3.isTyping && s3.outbox == [JoinRoom("alice", "ABCD")];
    var s5 := Step(Step(s3, Edit("hi")), Submit);
    TypeAndSendHi(s3);
    JoinThenThree(JoinRoom("alice", "ABCD"), TypingStart, SendMessage("hi"), TypingStop);
    assert s5.outbox == [JoinRoom("alice", "ABCD"), TypingStart, SendMessage("hi"), TypingStop];
    assert !s5.isLoading && s5.messages == [] && s5.username == "alice";
    OwnMessageArrives(s5, m);
  }

  lemma JoinThenThree(a: Outbound, b: Outbound, c: Outbound, d: Outbound)
    ensures [a] + [b, c, d] == [a, b, c, d]
  {
  }

  /** One's own message arriving in an empty, loaded log is shown as the only bubble, styled as one's own. */
  lemma OwnMessageArrives(s: Session, m: MessageView.Message)
    requires !s.isLoading && s.messages == []
    requires m.kind == None && m.author == Some(s.username)
    ensures var r := Step(s, Server(NewMessage(m)));
            && r.outbox == s.outbox && r.messages == [m]
            && ChatView.SessionMessageList(r).Bubbles?
            && ChatView.SessionMessageList(r).items[0].style == MessageView.SelfClass
            && ChatView.SessionMessageList(r).items[0].name == "You"
  {
    MessageIsAppend(s, m);
    var r := Step(s, Server(NewMessage(m)));
    assert r.messages == [m] && r.username == s.username && !r.isLoading;
    OwnMessageShowsAsSelf(r);
  }

  lemma OwnMessageShowsAsSelf(s: Session)
    requires !s.isLoading && |s.messages| == 1
    requires s.messages[0].kind == None && s.messages[0].author == Some(s.username)
    ensures ChatView.SessionMessageList(s).Bubbles?
    ensures ChatView.SessionMessageList(s).items[0].style == MessageView.SelfClass
    ensures ChatView.SessionMessageList(s).items[0].name == "You"
  {
  }

  /** A freshly mounted session for "alice" meets the starting point of the walk-through above. */
  lemma MountAlice(env: Option<string>, hostname: string, protocol: string)
    ensures var start := Mount(Some("alice"), "ABCD", env, hostname, protocol);
            && start.Started?
            && start.session.username == "alice" && start.session.roomCode == "ABCD"
            && start.session.outbox == [] && !start.session.isTyping
  {
  }
}

=== FILE: text.dfy ===
/**
 * The JavaScript string primitives the chat client relies on, over `string`
 * (a sequence of characters): `String.prototype.trim`, `substring(0, n)` and
 * the decimal rendering of a non-negative integer in a template literal.
 */
module Text {

  /** ECMAScript WhiteSpace and LineTerminator code points: what `trim` strips. */
  predicate IsWhitespace(c: char) {
    || c == '\t' || c == '\n' || c == '\U{000B}' || c == '\U{000C}' || c == '\r'
    || c == ' ' || c == '\U{00A0}' || c == '\U{1680}'
    || ('\U{2000}' <= c <= '\U{200A}')
    || c == '\U{2028}' || c == '\U{2029}' || c == '\U{202F}' || c == '\U{205F}'
    || c == '\U{3000}' || c == '\U{FEFF}'
  }

  /** Every character of `s` is whitespace (vacuously true of ""). */
  predicate IsBlank(s: string) {
    forall k :: 0 <= k < |s| ==> IsWhitespace(s[k])
  }

  /** Leading whitespace removed: the longest suffix of `s` that does not start with whitespace. */
  function TrimStart(s: string): (r: string)
    ensures |r| <= |s| && r == s[|s| - |r|..]
    ensures IsBlank(s[..|s| - |r|])
    ensures r == [] || !IsWhitespace(r[0])
    decreases |s|
  {
    if |s| > 0 && IsWhitespace(s[0]) then
      var r := TrimStart(s[1..]);
      assert IsBlank(s[..|s| - |r|]) by {
        assert s[..|s| - |r|] == [s[0]] + s[1..][..|s| - 1 - |r|];
      }
      assert r == s[|s| - |r|..] by {
        assert s[1..][|s| - 1 - |r|..] == s[|s| - |r|..];
      }
      r
    else s
  }

  /** Trailing whitespace removed: the longest prefix of `s` that does not end with whitespace. */
  function TrimEnd(s: string): (r: string)
    ensures |r| <= |s| && r == s[..|r|]
    ensures IsBlank(s[|r|..])
    ensures r == [] || !IsWhitespace(r[|r| - 1])
    decreases |s|
  {
    if |s| > 0 && IsWhitespace(s[|s| - 1]) then
      var r := TrimEnd(s[..|s| - 1]);
      assert IsBlank(s[|r|..]) by {
        assert s[|r|..] == s[..|s| - 1][|r|..] + [s[|s| - 1]];
      }
      assert r == s[..|r|] by {
        assert s[..|s| - 1][..|r|] == s[..|r|];
      }
      r
    else s
  }

  /** `s.trim()`: a contiguous piece of `s` with all surrounding whitespace removed. */
  function Trim(s: string): (r: string)
    ensures |r| <= |s|
    ensures r == [] || (!IsWhitespace(r[0]) && !IsWhitespace(r[|r| - 1]))
    ensures r == [] <==> IsBlank(s)
  {
    var t := TrimStart(s);
    assert t == [] ==> IsBlank(s) by {
      if t == [] { assert s[..|s|] == s; }
    }
    TrimEnd(t)
  }

  /** `Trim(s)` is the slice of `s` between two runs of whitespace. */
  lemma TrimIsInfix(s: string)
    ensures exists i, j :: 0 <= i <= j <= |s| && Trim(s) == s[i..j]
                           && IsBlank(s[..i]) && IsBlank(s[j..])
  {
    var t := TrimStart(s);
    var r := TrimEnd(t);
    var i := |s| - |t|;
    var j := i + |r|;
    assert Trim(s) == r;
    assert t == s[i..] && r == t[..|r|];
    assert r == s[i..j];
    assert IsBlank(s[..i]);
    assert s[j..] == t[|r|..];
    assert IsBlank(s[j..]);
  }

  /** Trimming twice is trimming once. */
  lemma TrimIdempotent(s: string)
    ensures Trim(Trim(s)) == Trim(s)
  {
    var r := Trim(s);
    if r != [] {
      assert TrimStart(r) == r;
      assert TrimEnd(r) == r;
    }
  }

  /** `s.endsWith(suffix)`. */
  predicate EndsWith(s: string, suffix: string) {
    |suffix| <= |s| && s[|s| - |suffix|..] == suffix
  }

  /** A string ending in `t` ends in whatever `t` ends in. */
  lemma EndsWithTransitive(s: string, t: string, u: string)
    requires EndsWith(s, t) && EndsWith(t, u)
    ensures EndsWith(s, u)
  {
    assert s[|s| - |u|..] == s[|s| - |t|..][|t| - |u|..];
  }

  /** The pieces of `a + b + c + d` read back by position. */
  lemma FourPieces(a: string, b: string, c: string, d: string)
    ensures var x := a + b + c + d;
            && |x| == |a| + |b| + |c| + |d|
            && x[..|a|] == a
            && x[|a|..|a| + |b|] == b
            && EndsWith(x, d)
  {
    var x := a + b + c + d;
    assert x[..|a|] == a;
    assert x[|a|..|a| + |b|] == b;
    assert x[|x| - |d|..] == d;
  }

  /** `s.substring(0, n)` for `n >= 0`: the first `n` characters, or all of `s` when it is shorter. */
  function Prefix(s: string, n: nat): (r: string)
    ensures |r| == if |s| <= n then |s| else n
    ensures r == s[..|r|]
  {
    if |s| <= n then s else s[..n]
  }

  /** Cutting to a length the string already respects changes nothing. */
  lemma PrefixOfShort(s: string, n: nat)
    requires |s| <= n
    ensures Prefix(s, n) == s
  {
  }

  predicate IsDigit(c: char) {
    '0' <= c <= '9'
  }

  function DigitChar(d: nat): (c: char)
    requires d < 10
    ensures IsDigit(c) && (c as int) - ('0' as int) == d
  {
    (('0' as int) + d) as char
  }

  function DigitValue(c: char): (d: nat)
    requires IsDigit(c)
    ensures d < 10
  {
    (c as int) - ('0' as int)
  }

  /** `${n}` for a non-negative integer: canonical decimal digits, no leading zero. */
  function NatToString(n: nat): (r: string)
    ensures 1 <= |r|
    ensures forall k :: 0 <= k < |r| ==> IsDigit(r[k])
    ensures |r| > 1 ==> r[0] != '0'
    ensures n < 10 <==> |r| == 1
    decreases n
  {
    if n < 10 then [DigitChar(n)] else NatToString(n / 10) + [DigitChar(n % 10)]
  }

  /** Reads a string of decimal digits back as a number. */
  function ParseDecimal(s: string): nat
    requires forall k :: 0 <= k < |s| ==> IsDigit(s[k])
    decreases |s|
  {
    if s == [] then 0 else 10 * ParseDecimal(s[..|s| - 1]) + DigitValue(s[|s| - 1])
  }

  /** The decimal rendering loses nothing: reading it back gives the number. */
  lemma {:induction false} ParseNatToString(n: nat)
    ensures ParseDecimal(NatToString(n)) == n
    decreases n
  {
    var r := NatToString(n);
    if n >= 10 {
      ParseNatToString(n / 10);
      assert r[..|r| - 1] == NatToString(n / 10);
    }
  }

  /** Distinct numbers render as distinct strings. */
  lemma NatToStringInjective(m: nat, n: nat)
    requires NatToString(m) == NatToString(n)
    ensures m == n
  {
    ParseNatToString(m);
    ParseNatToString(n);
  }
}

=== FILE: typing_set.dfy ===
/**
 * An insertion-ordered set (a JavaScript `Set` of names) kept as a sequence
 * without duplicates: adding a present element leaves it where it was,
 * deleting an absent one changes nothing.
 */
module TypingSet {

  predicate NoDuplicates(s: seq<string>) {
    forall i, j :: 0 <= i < j < |s| ==> s[i] != s[j]
  }

  /** `new Set(s).add(x)`: `x` joins at the end unless already present. */
  function Add(s: seq<string>, x: string): (r: seq<string>)
    ensures forall y :: y in r <==> y in s || y == x
    ensures NoDuplicates(s) ==> NoDuplicates(r)
    ensures x in s ==> r == s
    ensures |s| <= |r| && r[..|s|] == s
  {
    if x in s then s else s + [x]
  }

  /** `next.delete(x)` on a copy of `s`: every other element stays, in order. */
  function Remove(s: seq<string>, x: string): (r: seq<string>)
    ensures forall y :: y in r <==> y in s && y != x
    ensures NoDuplicates(s) ==> NoDuplicates(r)
    ensures x !in s ==> r == s
    ensures |r| <= |s|
    decreases |s|
  {
    if s == [] then []
    else if s[0] == x then Remove(s[1..], x)
    else
      var rest := Remove(s[1..], x);
      assert NoDuplicates(s) ==> s[0] !in rest;
      [s[0]] + rest
  }

  /** Adding twice is adding once; removing twice is removing once. */
  lemma AddRemoveIdempotent(s: seq<string>, x: string)
    ensures Add(Add(s, x), x) == Add(s, x)
    ensures Remove(Remove(s, x), x) == Remove(s, x)
  {
  }

  /** On a duplicate-free sequence, removal takes out exactly the one occurrence and keeps the rest in place. */
  lemma {:induction false} RemoveCutsOneOut(s: seq<string>, i: nat)
    requires NoDuplicates(s) && i < |s|
    ensures Remove(s, s[i]) == s[..i] + s[i + 1..]
    decreases i
  {
    if i == 0 {
      assert Remove(s, s[0]) == s[1..] by {
        assert s[0] !in s[1..];
      }
      assert s[..0] + s[1..] == s[1..];
    } else {
      var t := s[1..];
      assert NoDuplicates(t) && t[i - 1] == s[i];
      RemoveCutsOneOut(t, i - 1);
      assert Remove(s, s[i]) == [s[0]] + Remove(t, s[i]) by {
        assert s[0] != s[i];
      }
      assert s[..i] + s[i + 1..] == [s[0]] + (t[..i - 1] + t[i..]) by {
        assert s[..i] == [s[0]] + t[..i - 1];
        assert s[i + 1..] == t[i..];
      }
    }
  }
}

=== FILE: wrappers.dfy ===
/** A minimal optional value, standing for JavaScript's `undefined`/`null`. */
module Wrappers {

  datatype Option<+T> = None | Some(value: T) {

    /** The wrapped value, or `default` when there is none (JavaScript's `x || default`). */
    function GetOr(default: T): T {
      match this
      case Some(v) => v
      case None => default
    }
  }
}
